=== FILE: README.md ===
# OnTrack front end: the progressive-profile gate, in Dafny

OnTrack is a single-page web application that walks a newly signed-in user
through a funnel: sign in, fill in the onboarding form, fill in the skills
assessment, then use the dashboard. This project models the logic that
drives that funnel and proves properties of it:

- the route table (`Routes`, `routes.dfy`), including how the router
  matches a location against a pattern: letter case is ignored and
  trailing slashes are dropped;
- the sign-in page (`AuthPage`, `auth.dfy`). It covers `routeUser`, which
  looks up the user's onboarding and assessment records and sends them to
  the first unfinished stage. It also covers the cached-session bootstrap,
  the `SIGNED_IN` listener, the credential submit and the login/sign-up
  toggle;
- the onboarding page (`OnboardingPage`, `onboarding.dfy`). It covers the
  three-step session handshake (cached session, then server check, then an
  auth-event subscription) and the three-step form. It also covers the
  submit that upserts the onboarding row;
- the assessment page (`AssessmentPage`, `assessment.dfy`). It covers the
  submit pipeline: validation, session check, the upsert keyed on
  `user_id`, the AI analysis trigger and navigation. It also covers the
  analysis-label counter;
- the dashboard (`DashboardPage`, `dashboard.dfy`). It covers the entry
  gate with its three reads, the tab selector, logout and the two counters
  of the loading screen;
- the GitHub panel (`GithubStats`, `github.dfy`). It covers the username
  fallback, the star sum, the language tally, the top language and the
  profile defaults;
- the learning plan (`CoursesView`, `courses.dfy`). It covers the grouping
  of resources by normalised skill label, built on a generic
  insertion-ordered group-by (`Grouping`, `grouping.dfy`).

Every handler is a pure function. It takes the page's state and the
answers of the outside world and returns the new state together with the
list of effects it performs, in order (`Base.Step`, `Base.Effect`). The
effects are provider calls, table reads and writes, the analysis trigger,
alerts and navigations.

The outside world is represented as follows:

- Record lookups are an oracle from (table, user) to `Found` or
  `LookupError(code)`.
- Other calls are tagged replies: `WriteReply`, `UserReply`,
  `TriggerReply`, `ProviderReply` and `Outcome`.
- Auth events are a sequence consumed in order.

Time is represented by tick counts.

Where the code is more permissive than a stricter reading would be, the
model follows the code:

- A lookup error other than the not-found code `PGRST116` counts as "record
  present". A stricter gate would treat such an error as a distinct
  outcome; the code does not.
- A rejected analysis trigger takes the ordinary failure path: an alert and
  no navigation. There is no "saved, analysis failed" degraded success.
- The dashboard admits any signed-in user. It does not check the funnel
  stage.
- The sign-in page ignores `SIGNED_OUT` and every event other than
  `SIGNED_IN`. The onboarding page never releases its subscription on
  unmount. It releases it only after the first event carrying a user.
- Onboarding fields are not validated.

## Model

| member | source | states |
|---|---|---|
| Routes.Resolve | src/App.jsx:16-31 | a location renders a page only when that page's pattern matches it, ignoring letter case and trailing slashes; otherwise it redirects to "/", and then no pattern matches it |
| Routes.StripTrailing | src/App.jsx:16-31 | the result is a prefix of the location, does not end in a slash, and only slashes were removed |
| Routes.CanonOfPaths | src/App.jsx:18-28 | the five mounted paths are already in canonical form, except "/", whose canonical form is empty |
| Routes.ResolvePathOf | src/App.jsx:18-28 | each of the five pages is rendered at its own path |
| Routes.ResolveKnown | src/App.jsx:16-31 | a location renders a given page if and only if that page's pattern matches it, so no two routes compete for a location |
| Routes.StripTrailingLower | src/App.jsx:16-31 | dropping trailing slashes and lower-casing commute |
| Routes.ResolveIgnoresCase | src/App.jsx:16-31 | a location and its lower-cased form lead to the same page |
| Routes.ResolveIgnoresTrailingSlash | src/App.jsx:16-31 | a non-empty location with one more trailing slash leads to the same page |
| Routes.ResolveMixedCaseExample | src/App.jsx:21 | "/Auth" renders the sign-in page |
| Routes.ResolveUpperCaseSlashExample | src/App.jsx:28 | "/DASHBOARD/" renders the dashboard |
| Routes.ResolvePrefixExample | src/App.jsx:21-31 | "/authx" is not the sign-in path and redirects to "/" |
| Routes.RedirectTerminates | src/App.jsx:18-31 | the wildcard's target "/" is itself a route, so one redirect always ends on the landing page |
| Routes.Settle | src/App.jsx:16-31 | the page finally shown is the page whose pattern matches, or the landing page for a location no pattern matches |
| AuthPage.RouteUser | src/pages/Auth.jsx:19-46 | exactly one navigation, as the last effect. The onboarding lookup comes first, and the assessment lookup is issued if and only if onboarding was not `PGRST116`. It goes to /onboarding iff onboarding is `PGRST116`, to /assessment iff only assessment is, and to /dashboard otherwise. Every effect is a lookup or the navigation: two effects when onboarding is `PGRST116`, three otherwise |
| AuthPage.RouteUserFollowsFunnel | src/pages/Auth.jsx:19-46 | the single navigation goes to the path of the user's funnel stage computed from the two lookups |
| AuthPage.RoutingMonotone | src/pages/Auth.jsx:27-45 | a user with at least the records of another user is routed to a stage at least as far along the funnel |
| AuthPage.OtherErrorsCountAsPresent | src/pages/Auth.jsx:27-33 | an onboarding lookup error with another code never sends the user to /onboarding; the assessment lookup is then issued |
| AuthPage.Mount | src/pages/Auth.jsx:49-61 | mounting reads the cached session and subscribes, changing nothing else |
| AuthPage.Bootstrap | src/pages/Auth.jsx:50-56 | a cached user is routed to their funnel stage with exactly one navigation, and its effects are exactly `RouteUser`'s lookups and navigation; with none, `checkingSession` becomes false and nothing is done |
| AuthPage.OnAuthStateChange | src/pages/Auth.jsx:61-65 | while subscribed, a `SIGNED_IN` event with a user routes that user by stage with exactly `RouteUser`'s effects; every other event does nothing |
| AuthPage.ListenNavigatesPerSignIn | src/pages/Auth.jsx:61-65 | over a sequence of events, the number of navigations equals the number of `SIGNED_IN` events carrying a user |
| AuthPage.Teardown | src/pages/Auth.jsx:67 | unmount releases the subscription and does nothing else: the only effect is the unsubscription and only the listening flag changes |
| AuthPage.NothingAfterTeardown | src/pages/Auth.jsx:61-67 | after unmount, no event produces any effect |
| AuthPage.Submit | src/pages/Auth.jsx:70-94 | an empty email or password sets "Identity credentials required." with no provider call. Otherwise it makes one provider call, login or sign-up by mode, and `loading` ends false. The error is the refusal message or empty. Verification is awaited iff a sign-up was accepted. A navigation happens iff a login was accepted. A refusal or an accepted sign-up performs the provider call alone. An accepted login performs the call followed by exactly the routing of that user. The credentials, mode and session flags are unchanged |
| AuthPage.LoginRoutesByStage | src/pages/Auth.jsx:80-83 | the submit handler by itself navigates exactly once after an accepted login, to the user's funnel stage |
| AuthPage.LoginThenListenerRoutesTwice | src/pages/Auth.jsx:61-83 | an accepted login followed by its `SIGNED_IN` event on a subscribed page navigates twice, both times to the user's funnel stage |
| AuthPage.BootstrapThenListenerRoutesTwice | src/pages/Auth.jsx:49-64 | a cached session followed by a `SIGNED_IN` event for the same user on a subscribed page navigates twice, both times to the user's funnel stage |
| AuthPage.ToggleMode | src/pages/Auth.jsx:226 | the toggle changes the mode and nothing else |
| AuthPage.ToggleModeTwice | src/pages/Auth.jsx:226 | toggling twice restores the state |
| AuthPage.AcknowledgeVerification | src/pages/Auth.jsx:122 | the "verified" button clears `awaitingVerification` and nothing else |
| AuthPage.ScreenOf | src/pages/Auth.jsx:107-141 | the verification screen shows iff verification is awaited; the credential form shows iff neither verification nor the session check is pending |
| AuthPage.BootstrapRevealsForm | src/pages/Auth.jsx:50-56 | with no cached session the credential form is shown |
| OnboardingPage.Handle | src/pages/Onboarding.jsx:33-35 | editing a field sets that field and leaves the other four unchanged |
| OnboardingPage.OnAuthStateChange | src/pages/Onboarding.jsx:57-63 | while subscribed, an event of any kind whose session has a user resolves that user, sets `authReady` and unsubscribes; any other event, or any event after that, does nothing |
| OnboardingPage.FeedResolvesFirstUser | src/pages/Onboarding.jsx:57-63 | over a sequence of events, the first one carrying a user resolves the session and unsubscribes; with no such event nothing happens |
| OnboardingPage.Feed | src/pages/Onboarding.jsx:57-63 | handling events performs nothing but unsubscriptions and leaves the form, the step and the sync flag alone |
| OnboardingPage.FeedIdle | src/pages/Onboarding.jsx:57-63 | once unsubscribed, no event has any effect |
| OnboardingPage.FeedMonotone | src/pages/Onboarding.jsx:57-63 | events keep the session invariant: `authReady` iff a user is set. They never undo `authReady` nor change a resolved user |
| OnboardingPage.Init | src/pages/Onboarding.jsx:38-67 | the handshake reads the cached session first. It checks the server iff there is no cached user, and subscribes iff both are empty. It performs only session reads, subscriptions and unsubscriptions. A cached user is adopted at once. When both are empty the effects are the session read, the server check and the subscription, followed by one unsubscription iff some event carries a user; otherwise the page is left listening. The form, step and sync flag are untouched |
| OnboardingPage.InitPriority | src/pages/Onboarding.jsx:38-67 | a cached user wins with only the session read. Otherwise a server user wins with no subscription. Only when both are empty is a subscription made, and it is ready iff some event carries a user, resolving to the first such user and then releasing the subscription; with no such event it keeps listening |
| OnboardingPage.ScreenOf | src/pages/Onboarding.jsx:70-77 | the form is shown, at the current step, iff `authReady` holds |
| OnboardingPage.RowFor | src/pages/Onboarding.jsx:91-98 | the upsert row carries the user's id and the five form fields verbatim |
| OnboardingPage.Submit | src/pages/Onboarding.jsx:79-109 | with no user, it alerts and goes to /auth with no upsert. Otherwise it upserts exactly the form's row and then either navigates to /assessment (write succeeded) or alerts the sync failure (write failed); nothing else happens. `isSyncing` ends false either way |
| OnboardingPage.SubmitFromFormWrites | src/pages/Onboarding.jsx:70-98 | a submit from the visible form always writes the row for the resolved user |
| OnboardingPage.Press | src/pages/Onboarding.jsx:180-193 | Back decrements the step. Primary is inert while syncing, increments before step 3 and, on step 3, behaves exactly as `OnboardingPage.Submit` (alert and /auth without a user, upsert then /assessment or an alert with one) |
| OnboardingPage.PressKeepsStepInRange | src/pages/Onboarding.jsx:180-187 | a press of an offered button keeps the step within 1..3 |
| OnboardingPage.Clicks | src/pages/Onboarding.jsx:180-193 | any sequence of button presses keeps the step within 1..3 and never changes the session |
| AssessmentPage.Handle | src/pages/Assessment.jsx:49-51 | editing a field sets that field and leaves the others unchanged |
| AssessmentPage.SubmitEnabled | src/pages/Assessment.jsx:288 | the button is enabled iff both required fields are non-empty and no submission is running |
| AssessmentPage.NullIfEmpty | src/pages/Assessment.jsx:96-97 | an empty handle is stored as null, any other verbatim |
| AssessmentPage.RowFor | src/pages/Assessment.jsx:92-97 | the row carries `user_id`, `skill_summary` and `interests` verbatim and nulls empty handles |
| AssessmentPage.Submit | src/pages/Assessment.jsx:62-120 | An incomplete form does nothing. With no user it alerts and goes to /auth, with no upsert or trigger. With a user it upserts the row second, and the trigger is issued iff the write succeeded. /dashboard is reached iff session, write and trigger all succeed. A failed write gives user check, upsert, alert. A rejected trigger gives user check, upsert, trigger, alert. Success gives user check, upsert, trigger, navigation to /dashboard. `loading` stays set exactly on that success path |
| AssessmentPage.IncompleteStaysOffline | src/pages/Assessment.jsx:64 | an incomplete form causes no network effect and leaves `loading` unchanged |
| AssessmentPage.SubmitOrder | src/pages/Assessment.jsx:78-113 | on the success path the order is: user check, upsert, trigger, navigation |
| AssessmentPage.ApplyUpsert | src/pages/Assessment.jsx:90-100 | an upsert on `user_id` sets that user's row, keeps every other user's row and keeps the table keyed by `user_id` |
| AssessmentPage.ResubmitIdempotent | src/pages/Assessment.jsx:90-100 | committing the same submission twice leaves the table as committing it once |
| AssessmentPage.RejectedTriggerKeepsRow | src/pages/Assessment.jsx:103-119 | a rejected trigger leaves the row written, yet the page does not navigate |
| AssessmentPage.AnalysisAfterIsBounded | src/pages/Assessment.jsx:53-74 | after n ticks the label index is min(n, 4): non-decreasing and within the five labels |
| DashboardPage.LoadData | src/pages/Dashboard.jsx:50-74 | with no user, it goes to /auth with no reads. With a user, it reads `users_state`, `user_onboarding` and `user_assessment` for that user without navigating, stores each answer (null or not) and arms the reveal |
| DashboardPage.Reveal | src/pages/Dashboard.jsx:73 | the reveal clears `loading` only when it was armed, keeping the data and the selected tab |
| DashboardPage.AnyUserIsAdmitted | src/pages/Dashboard.jsx:50-78 | every signed-in user gets past the loading screen whatever their records hold |
| DashboardPage.SelectTab | src/pages/Dashboard.jsx:96-128 | after a tab click exactly that tab's view is rendered, with the stored data; loading and a pending reveal are untouched |
| DashboardPage.TabSelectsOneView | src/pages/Dashboard.jsx:120-128 | each tab value renders exactly one view |
| DashboardPage.TabNamesDistinct | src/pages/Dashboard.jsx:96-110 | distinct buttons store distinct tab values |
| DashboardPage.UnknownTabRendersNothing | src/pages/Dashboard.jsx:120-128 | a value no button stores renders no view |
| DashboardPage.ScreenOf | src/pages/Dashboard.jsx:78-128 | the loading screen iff `loading`; afterwards at most one view, the selected tab's, and none for a value no button stores |
| DashboardPage.CoursesViewHasUser | src/pages/Dashboard.jsx:78-125 | once past the loading screen the courses view always receives a user |
| DashboardPage.Logout | src/pages/Dashboard.jsx:111 | logout signs out first and then navigates to "/", which lands on the landing page; nothing else happens |
| DashboardPage.PercentAfterBounded | src/pages/Dashboard.jsx:163-177 | after n ticks the bar is at min(n, 100): non-decreasing and never past 100 |
| DashboardPage.LogIndexAfterBounded | src/pages/Dashboard.jsx:180-185 | after n ticks the log index is min(n, 10): non-decreasing and within the eleven lines |
| Grouping.Insert | src/pages/dashboard/CoursesView.jsx:28-29 | filing an element appends it to its key's group, or opens a new group last; keys stay distinct and other groups are unchanged |
| Grouping.GroupBy | src/pages/dashboard/CoursesView.jsx:25-30 | groups have distinct keys; each holds exactly the elements of its key in original order; a key has a group iff some element has it; sizes sum to the input length |
| Grouping.GroupsInFirstSeenOrder | src/pages/dashboard/CoursesView.jsx:25-46 | groups appear in the order their keys first occur |
| GithubStats.Username | src/pages/dashboard/GithubStats.jsx:7 | `github_username` when non-empty, else `github_handle` when non-empty, else no username |
| GithubStats.Aggregate | src/pages/dashboard/GithubStats.jsx:17-27 | the loop computes the star sum and the language tally of the listing, and 0 and an empty tally when the answer is not a list |
| GithubStats.TallyIsGrouping | src/pages/dashboard/GithubStats.jsx:18-26 | the tally is the group-by-language of the repositories with a language, each group replaced by its size |
| GithubStats.TallyMeaning | src/pages/dashboard/GithubStats.jsx:20-26 | one entry per distinct non-empty language. Each count is the number of repositories in that language and is at least 1. The counts sum to the number of repositories with a language, at most the listing length |
| GithubStats.SortHeadIsFirstMax | src/pages/dashboard/GithubStats.jsx:29 | the first element of the stable descending sort is the first entry of greatest count |
| GithubStats.TopLang | src/pages/dashboard/GithubStats.jsx:29 | the head of the descending sort is the first entry of greatest count: its language, or "NONE" for an empty tally or an empty language |
| GithubStats.TopLangIsFirstMax | src/pages/dashboard/GithubStats.jsx:29 | "NONE" when no repository has a language. Otherwise it is the first entry of greatest count, and no language occurs in more repositories |
| GithubStats.TopLangTieBreak | src/pages/dashboard/GithubStats.jsx:29 | among languages with the top count, the reported one is met first in the listing |
| GithubStats.RepoCount | src/pages/dashboard/GithubStats.jsx:32 | `public_repos`, or 0 when missing |
| GithubStats.Created | src/pages/dashboard/GithubStats.jsx:38 | the first ten characters of `created_at`, or "----" when it is missing or empty |
| GithubStats.BuildStats | src/pages/dashboard/GithubStats.jsx:29-39 | the stats hold the repo count, the star sum and top language of the listing (0 and "NONE" for a non-list), the profile fields and the creation date |
| GithubStats.FetchGithubData | src/pages/dashboard/GithubStats.jsx:9-43 | no username means no fetch. After a fetch `loading` is false whether it succeeded or threw. Stats are set only on success |
| GithubStats.FailedFetchCrashesRender | src/pages/dashboard/GithubStats.jsx:40-77 | as written, a thrown fetch leaves the panel dereferencing null stats |
| GithubStats.ScreenAsWritten | src/pages/dashboard/GithubStats.jsx:45-77 | as written: no username gives the no-GitHub frame, loading the loading frame; once loaded, missing stats crash the render and present stats show the panel |
| GithubStats.ScreenOf | src/pages/dashboard/GithubStats.jsx:45-46 | corrected render: never crashes; shows the panel iff stats exist after loading, and a status frame otherwise |
| GithubStats.CorrectionOnlyReplacesCrash | src/pages/dashboard/GithubStats.jsx:45-77 | the corrected render agrees with the one as written wherever that one renders, and shows the unavailable frame exactly where it crashes |
| GithubStats.EveryOutcomeRenders | src/pages/dashboard/GithubStats.jsx:7-46 | from mount, every fetch outcome leads to a screen that renders |
| CoursesView.Key | src/pages/dashboard/CoursesView.jsx:27 | the key is the label's middle, between white-space-only ends, lower-cased; the key has no white space at either end |
| CoursesView.TrimIsInfix | src/pages/dashboard/CoursesView.jsx:27 | trimming yields the infix between white-space-only ends, with no white space at its own ends |
| CoursesView.TrimIdempotent | src/pages/dashboard/CoursesView.jsx:27 | trimming twice equals trimming once |
| CoursesView.TrimLowerCommute | src/pages/dashboard/CoursesView.jsx:27 | lower-casing and trimming commute |
| CoursesView.KeyIdempotent | src/pages/dashboard/CoursesView.jsx:27 | a key is already normalised |
| CoursesView.KeyIgnoresCase | src/pages/dashboard/CoursesView.jsx:27 | labels that differ only in letter case share a key |
| CoursesView.KeyIgnoresPadding | src/pages/dashboard/CoursesView.jsx:27 | white space around a label does not change its key |
| CoursesView.Grouped | src/pages/dashboard/CoursesView.jsx:25-30 | groups have distinct keys. Each holds exactly the resources of its key in stored order. Sizes sum to the number of resources |
| CoursesView.GroupLabelsAreKeys | src/pages/dashboard/CoursesView.jsx:27-28 | every group label is a normalised key |
| CoursesView.SameGroupIffSameKey | src/pages/dashboard/CoursesView.jsx:25-30 | two resources share a group iff their skill labels normalise to the same key |
| CoursesView.PlanInFirstSeenOrder | src/pages/dashboard/CoursesView.jsx:46 | groups are listed in the order their labels first occur |
| CoursesView.Load | src/pages/dashboard/CoursesView.jsx:11-17 | one read of the user's resources; a null answer becomes the empty list; `loading` ends false |
| CoursesView.ScreenOf | src/pages/dashboard/CoursesView.jsx:22-46 | the loading line iff loading; afterwards one group per distinct key, each holding exactly the resources with that key in stored order, and every resource's key has a group. The plan is exactly `CoursesView.Grouped` of the resources, so it has no extra groups and lists groups in first-seen order |
| CoursesView.LoadedPlanShowsEverything | src/pages/dashboard/CoursesView.jsx:11-30 | after the read the plan shows every resource read, and nothing for a null answer |

## Left out

- Routes.Resolve: percent-encoded characters in a location are not decoded before matching, and the router's base name is taken to be "/". Letter case is compared for ASCII letters only, which is how a case-insensitive pattern treats ASCII patterns.
- I/O and timing are not modelled: the Supabase client, `fetch`, `alert`, `console`, timers and the real durations of `setInterval`/`setTimeout`. Their results are parameters, and timers are tick counts.
- The Google OAuth redirect (`googleLogin`) is not modelled. It leaves the page, and its return arrives as an auth event.
- Lenis smooth scrolling and framer-motion animation are not modelled: they are presentation only.
- The presentation-only pages and views are not modelled: landing, background, home, roadmap, protocol and profile views. Neither are the LeetCode panel or the AI coach views. They are display fallbacks and a third-party fetch.
- Intermediate flags that only last while a call is in flight are not modelled: `loading` during sign-in, `isSyncing` during the onboarding write and `loading` during the course read. Only their values after the handler are modelled.
- Concurrency between in-flight calls and events is not modelled. Each handler runs to completion before the next event.
- The onboarding table's uniqueness per user is not modelled. The onboarding upsert names no conflict column, so it depends on a table key that is not part of this model.
- AssessmentPage.Submit: on the session-expired path the label interval is left running and `loading` stays true. The model records `loading` but not the orphaned interval.
- AuthPage.Submit: the handler alone routes an accepted login once. The provider also delivers `SIGNED_IN` to the page's own listener, so the running page routes the user twice, with four lookups and two navigations (`AuthPage.LoginThenListenerRoutesTwice`). The same holds for an OAuth return through the bootstrap and the listener. The two routings are modelled one after the other; their interleaving is not.
- AssessmentPage.AnalysisAfterIsBounded: the counter is local to one submission and restarts at 0 on the next one. Monotonicity is stated within one submission.
- GithubStats.Aggregate: `stargazers_count` is taken to be an integer. A missing count would make the JavaScript sum NaN.
- GithubStats.Bump: entries are kept in insertion order. JavaScript enumerates integer-like property names (such as "3") first, in numeric order, and that is not modelled.
- GithubStats.TopLangTieBreak: ties go to the language met first only among languages that are not integer-like names; an integer-like language name would be enumerated first and win a tie.
- Grouping.GroupsInFirstSeenOrder: first-seen order is what an object gives for keys that are not integer-like; integer-like keys would be listed first, in numeric order.
- CoursesView.PlanInFirstSeenOrder: skill groups are listed in first-seen order only when no normalised label is integer-like (such as "1"); such labels would be listed first, in numeric order.
- GithubStats.RepoCount: `public_repos` is taken to be an integer or missing. Other falsy values are not modelled.
- CoursesView.Key: only ASCII letters are lower-cased. `toLowerCase` also maps non-ASCII letters. The white-space set of `trim` is modelled in full.
- CoursesView.Grouped: groups into a map, so every label is grouped. The source groups into a plain object, where a label that normalises to "constructor" or "__proto__" finds an inherited, truthy member; `grouped[key].push` then throws and the view does not render. Those two labels are not modelled.
- CoursesView.Load: a resource row's `skill` is taken to be a string. A null skill would throw in `toLowerCase`.

## Findings

| source | as written | input that shows it | evidently intended | confidence | as-written member | corrected member |
|---|---|---|---|---|---|---|
| src/pages/dashboard/GithubStats.jsx:40-77 | when either request or its JSON parse throws, the catch only logs. `loading` becomes false while `stats` stays null, and the render reads `stats.stars` | a non-empty username whose profile request fails at the network level | a status frame instead of the panel when no stats were produced | medium, not executed | GithubStats.FailedFetchCrashesRender | GithubStats.ScreenOf |

=== FILE: assessment.dfy ===
/** The assessment page: the form of skills, interests and optional external
    handles, the submit pipeline (validate, check the session, upsert the row
    keyed on the user, trigger the AI job, go to the dashboard), the progress
    label counter shown while it runs, and the assessment table it writes. */
module AssessmentPage {
  import opened Base

  datatype AssessmentForm = AssessmentForm(
    skill_summary: string,
    interests: string,
    github_username: string,
    leetcode_username: string)

  datatype Field = SkillSummary | Interests | GithubUsername | LeetcodeUsername

  function Get(f: AssessmentForm, field: Field): string {
    match field
    case SkillSummary => f.skill_summary
    case Interests => f.interests
    case GithubUsername => f.github_username
    case LeetcodeUsername => f.leetcode_username
  }

  /** An input's change handler: only the named field changes. */
  function Handle(f: AssessmentForm, field: Field, value: string): (r: AssessmentForm)
    ensures Get(r, field) == value
    ensures forall other: Field :: other != field ==> Get(r, other) == Get(f, other)
  {
    match field
    case SkillSummary => f.(skill_summary := value)
    case Interests => f.(interests := value)
    case GithubUsername => f.(github_username := value)
    case LeetcodeUsername => f.(leetcode_username := value)
  }

  datatype AssessmentState = AssessmentState(loading: bool, analysisStep: int, form: AssessmentForm)

  function Initial(): AssessmentState {
    AssessmentState(false, 0, AssessmentForm("", "", "", ""))
  }

  /** Both free-text answers are required; the handles are optional. */
  predicate Complete(f: AssessmentForm) {
    f.skill_summary != "" && f.interests != ""
  }

  /** The submit button is disabled while loading or while an answer is missing. */
  function SubmitEnabled(s: AssessmentState): (b: bool)
    ensures b ==> Complete(s.form) && !s.loading
    ensures !b ==> !Complete(s.form) || s.loading
  {
    !(s.loading || s.form.skill_summary == "" || s.form.interests == "")
  }

  /** An empty handle is stored as null. */
  function NullIfEmpty(h: string): (o: Option<string>)
    ensures o.None? <==> h == ""
    ensures o.Some? ==> o.value == h
  {
    if h == "" then None else Some(h)
  }

  /** The row written for a user: the answers verbatim, empty handles as null. */
  function RowFor(u: UserId, f: AssessmentForm): (row: AssessmentRow)
    ensures row.user_id == u
    ensures row.skill_summary == f.skill_summary && row.interests == f.interests
    ensures row.github_username == NullIfEmpty(f.github_username)
    ensures row.leetcode_username == NullIfEmpty(f.leetcode_username)
  {
    AssessmentRow(u, f.skill_summary, f.interests,
                  NullIfEmpty(f.github_username), NullIfEmpty(f.leetcode_username))
  }

  /** Reply to the server-verified user check. */
  datatype UserReply = UserFound(id: UserId) | NoUser | AuthFailed(message: string)

  /** Outcome of the POST that starts the AI job: any HTTP answer, whatever
      its status, resolves the request; only a network failure rejects it. */
  datatype TriggerReply = Answered(status: int) | Rejected

  const SessionExpired: string := "Session expired. Please login again."
  const SyncFailed: string := "System sync failed. Please check your connection."

  /** The submit pipeline. Each step has its own failure path:
      - a missing answer returns at once, before anything else happens;
      - a failed or empty user check alerts and goes back to sign-in, writing
        nothing (the page is left in its loading state);
      - a failed upsert alerts, triggers nothing, does not navigate and
        turns loading off;
      - a rejected trigger alerts and turns loading off without navigating,
        although the row has been written;
      - otherwise the page goes to the dashboard (still loading). */
  function Submit(s: AssessmentState, user: UserReply, write: WriteReply,
                  trigger: TriggerReply): (r: Step<AssessmentState>)
    ensures !Complete(s.form) ==> r == Step(s, [])
    ensures Complete(s.form) ==> |r.effects| > 0 && r.effects[0] == GetUser
    ensures Complete(s.form) && !user.UserFound? ==>
              && r.effects == [GetUser, Alert(SessionExpired), Navigate(AuthPath)]
              && r.state == s.(loading := true)
    ensures Complete(s.form) && user.UserFound? ==>
              |r.effects| >= 2 && r.effects[1] == Upsert(AssessmentData(RowFor(user.id, s.form)))
    ensures Complete(s.form) && user.UserFound? ==>
              (TriggerAnalysis(user.id) in r.effects <==> write.Written?)
    ensures !(Complete(s.form) && user.UserFound?) ==>
              forall i :: 0 <= i < |r.effects| ==> !r.effects[i].Upsert? && !r.effects[i].TriggerAnalysis?
    ensures (Navigate(DashboardPath) in r.effects) <==>
              Complete(s.form) && user.UserFound? && write.Written? && trigger.Answered?
    ensures Complete(s.form) && user.UserFound? ==>
              (r.state.loading <==> write.Written? && trigger.Answered?)
    ensures Complete(s.form) && user.UserFound? && write.WriteFailed? ==>
              r.effects == [GetUser, Upsert(AssessmentData(RowFor(user.id, s.form))), Alert(SyncFailed)]
    ensures Complete(s.form) && user.UserFound? && write.Written? && trigger.Rejected? ==>
              r.effects == [GetUser, Upsert(AssessmentData(RowFor(user.id, s.form))),
                            TriggerAnalysis(user.id), Alert(SyncFailed)]
    ensures Complete(s.form) && user.UserFound? && write.Written? && trigger.Answered? ==>
              r.effects == [GetUser, Upsert(AssessmentData(RowFor(user.id, s.form))),
                            TriggerAnalysis(user.id), Navigate(DashboardPath)]
    ensures r.state.form == s.form && r.state.analysisStep == s.analysisStep
  {
    if !Complete(s.form) then Step(s, [])
    else
      var busy := s.(loading := true);
      match user
      case NoUser => Step(busy, [GetUser, Alert(SessionExpired), Navigate(AuthPath)])
      case AuthFailed(_) => Step(busy, [GetUser, Alert(SessionExpired), Navigate(AuthPath)])
      case UserFound(u) =>
        var upsert := Upsert(AssessmentData(RowFor(u, s.form)));
        match write
        case WriteFailed(_) =>
          Step(busy.(loading := false), [GetUser, upsert, Alert(SyncFailed)])
        case Written =>
          match trigger
          case Rejected =>
            Step(busy.(loading := false), [GetUser, upsert, TriggerAnalysis(u), Alert(SyncFailed)])
          case Answered(_) =>
            Step(busy, [GetUser, upsert, TriggerAnalysis(u), Navigate(DashboardPath)])
  }

  /** Nothing reaches the network while an answer is missing. */
  lemma IncompleteStaysOffline(s: AssessmentState, user: UserReply, write: WriteReply,
                               trigger: TriggerReply)
    requires !Complete(s.form)
    ensures Offline(Submit(s, user, write, trigger).effects)
    ensures !Submit(s, user, write, trigger).state.loading <==> !s.loading
  {
  }

  /** Every run of the pipeline navigates at most once, and navigation to the
      dashboard comes after both the write and the trigger. */
  lemma SubmitOrder(s: AssessmentState, u: UserId, trigger: TriggerReply)
    requires Complete(s.form) && trigger.Answered?
    ensures var e := Submit(s, UserFound(u), Written, trigger).effects;
            |e| == 4 && e[1].Upsert? && e[2] == TriggerAnalysis(u) && e[3] == Navigate(DashboardPath)
  {
  }

  // ---------------------------------------------------------------------
  // The assessment table
  // ---------------------------------------------------------------------

  /** The assessment table, keyed on `user_id` (the upsert's conflict key). */
  type AssessmentTable = map<UserId, AssessmentRow>

  /** Every row sits under its own user: at most one row per user. */
  predicate WellKeyed(t: AssessmentTable) {
    forall u :: u in t ==> t[u].user_id == u
  }

  /** An upsert on conflict `user_id`: inserts the row or replaces the
      user's existing one; no other user's row changes. */
  function ApplyUpsert(t: AssessmentTable, row: AssessmentRow): (t': AssessmentTable)
    ensures t'.Keys == t.Keys + {row.user_id}
    ensures t'[row.user_id] == row
    ensures forall u :: u in t && u != row.user_id ==> t'[u] == t[u]
    ensures WellKeyed(t) ==> WellKeyed(t')
  {
    t[row.user_id := row]
  }

  /** The writes a run of the pipeline commits to the table. */
  function Commit(t: AssessmentTable, effects: seq<Effect>, write: WriteReply): AssessmentTable
    decreases |effects|
  {
    if effects == [] || write.WriteFailed? then t
    else
      var t' := if effects[0].Upsert? && effects[0].row.AssessmentData?
                then ApplyUpsert(t, effects[0].row.assessment) else t;
      Commit(t', effects[1..], write)
  }

  /** Resubmitting the same answers leaves the table as one submission did. */
  lemma {:induction false} ResubmitIdempotent(t: AssessmentTable, s: AssessmentState, u: UserId,
                                              trigger: TriggerReply)
    ensures var e := Submit(s, UserFound(u), Written, trigger).effects;
            Commit(Commit(t, e, Written), e, Written) == Commit(t, e, Written)
  {
    var e := Submit(s, UserFound(u), Written, trigger).effects;
    if Complete(s.form) {
      var row := RowFor(u, s.form);
      var t1 := ApplyUpsert(t, row);
      assert Commit(t, e, Written) == t1 by { CommitOneRow(t, e, row); }
      assert Commit(t1, e, Written) == ApplyUpsert(t1, row) by { CommitOneRow(t1, e, row); }
      assert ApplyUpsert(t1, row) == t1;
    } else {
      assert e == [];
    }
  }

  /** A run that writes exactly one row commits exactly that upsert. */
  lemma {:induction false} CommitOneRow(t: AssessmentTable, e: seq<Effect>, row: AssessmentRow)
    requires exists k :: 0 <= k < |e| && e[k] == Upsert(AssessmentData(row)) &&
                         forall j :: 0 <= j < |e| && j != k ==> !e[j].Upsert?
    ensures Commit(t, e, Written) == ApplyUpsert(t, row)
    decreases |e|
  {
    var k :| 0 <= k < |e| && e[k] == Upsert(AssessmentData(row)) &&
             forall j :: 0 <= j < |e| && j != k ==> !e[j].Upsert?;
    if k == 0 {
      CommitNoUpserts(ApplyUpsert(t, row), e[1..]);
    } else {
      assert e[1..][k - 1] == e[k];
      assert forall j :: 0 <= j < |e[1..]| && j != k - 1 ==> !e[1..][j].Upsert? by {
        forall j | 0 <= j < |e[1..]| && j != k - 1 ensures !e[1..][j].Upsert? {
          assert e[1..][j] == e[j + 1];
        }
      }
      CommitOneRow(t, e[1..], row);
    }
  }

  lemma {:induction false} CommitNoUpserts(t: AssessmentTable, e: seq<Effect>)
    requires forall j :: 0 <= j < |e| ==> !e[j].Upsert?
    ensures Commit(t, e, Written) == t
    decreases |e|
  {
    if e != [] {
      assert forall j :: 0 <= j < |e[1..]| ==> !e[1..][j].Upsert? by {
        forall j | 0 <= j < |e[1..]| ensures !e[1..][j].Upsert? {
          assert e[1..][j] == e[j + 1];
        }
      }
      CommitNoUpserts(t, e[1..]);
    }
  }

  /** A rejected trigger does not undo the write: the user's row holds the
      submitted answers although the page stays on the assessment. */
  lemma RejectedTriggerKeepsRow(t: AssessmentTable, s: AssessmentState, u: UserId)
    requires Complete(s.form)
    ensures var e := Submit(s, UserFound(u), Written, Rejected).effects;
            && u in Commit(t, e, Written) && Commit(t, e, Written)[u] == RowFor(u, s.form)
            && Navigations(e) == []
  {
    var e := Submit(s, UserFound(u), Written, Rejected).effects;
    CommitOneRow(t, e, RowFor(u, s.form));
  }

  // ---------------------------------------------------------------------
  // Progress labels
  // ---------------------------------------------------------------------

  const LabelCount: nat := 5

  /** One tick of the label timer: advance until the last label. */
  function AnalysisTick(step: int): int {
    if step < LabelCount - 1 then step + 1 else step
  }

  /** The label index after `n` ticks of one submission's timer, which
      counts from 0. */
  function AnalysisAfter(n: nat): int {
    if n == 0 then 0 else AnalysisTick(AnalysisAfter(n - 1))
  }

  /** The label index climbs one per tick and then stays on the last label. */
  lemma {:induction false} AnalysisAfterIsBounded(n: nat)
    ensures AnalysisAfter(n) == Min(n, LabelCount - 1)
    ensures 0 <= AnalysisAfter(n) <= LabelCount - 1
    ensures AnalysisAfter(n) <= AnalysisAfter(n + 1)
  {
    if n > 0 {
      AnalysisAfterIsBounded(n - 1);
    }
  }
}

=== FILE: auth.dfy ===
/** The sign-in page: the stage decision that sends a signed-in user to the
    first unfinished funnel stage, the session bootstrap, the auth-event
    listener, the credential form and its login/signup toggle. */
module AuthPage {
  import opened Base

  /** Error code the record store reports when a single-row query finds no row. */
  const NotFoundCode: string := "PGRST116"

  /** Outcome of a single-row lookup of a user's record. */
  datatype Lookup = Found | LookupError(code: string)

  /** The record store as seen by the page: the outcome of looking up a
      user's row of a table. */
  type Db = (Table, UserId) -> Lookup

  /** A lookup counts as "no record" only for the not-found code; every other
      error is treated as if the record were there. */
  predicate Absent(l: Lookup) {
    l.LookupError? && l.code == NotFoundCode
  }

  // ---------------------------------------------------------------------
  // Stage decision
  // ---------------------------------------------------------------------

  /** Looks up the onboarding record, then (only if it was not reported
      missing) the assessment record, and navigates to the first stage whose
      record is missing, or to the dashboard. */
  function RouteUser(user: UserId, db: Db): (effects: seq<Effect>)
    ensures |Navigations(effects)| == 1
    ensures effects[|effects| - 1].Navigate?
    ensures forall i :: 0 <= i < |effects| ==> effects[i].Select? || effects[i].Navigate?
    ensures |effects| == if Absent(db(UserOnboarding, user)) then 2 else 3
    ensures effects[0] == Select(UserOnboarding, user)
    ensures Select(UserAssessment, user) in effects <==> !Absent(db(UserOnboarding, user))
    ensures Navigate(OnboardingPath) in effects <==> Absent(db(UserOnboarding, user))
    ensures Navigate(AssessmentPath) in effects <==>
              !Absent(db(UserOnboarding, user)) && Absent(db(UserAssessment, user))
    ensures Navigate(DashboardPath) in effects <==>
              !Absent(db(UserOnboarding, user)) && !Absent(db(UserAssessment, user))
  {
    if Absent(db(UserOnboarding, user)) then
      [Select(UserOnboarding, user), Navigate(OnboardingPath)]
    else if Absent(db(UserAssessment, user)) then
      [Select(UserOnboarding, user), Select(UserAssessment, user), Navigate(AssessmentPath)]
    else
      [Select(UserOnboarding, user), Select(UserAssessment, user), Navigate(DashboardPath)]
  }

  /** The funnel stages in their order of progression. */
  datatype Stage = Unauthenticated | NeedsOnboarding | NeedsAssessment | Ready

  /** Reference funnel: a user is in the first stage whose record is missing. */
  function FunnelStage(signedIn: bool, hasOnboarding: bool, hasAssessment: bool): Stage {
    if !signedIn then Unauthenticated
    else if !hasOnboarding then NeedsOnboarding
    else if !hasAssessment then NeedsAssessment
    else Ready
  }

  function StagePath(s: Stage): string {
    match s
    case Unauthenticated => AuthPath
    case NeedsOnboarding => OnboardingPath
    case NeedsAssessment => AssessmentPath
    case Ready => DashboardPath
  }

  function Rank(s: Stage): nat {
    match s
    case Unauthenticated => 0
    case NeedsOnboarding => 1
    case NeedsAssessment => 2
    case Ready => 3
  }

  /** The stage the page derives from the two lookups, reading "present" as
      "not reported missing". */
  function StageOf(user: UserId, db: Db): Stage {
    FunnelStage(true, !Absent(db(UserOnboarding, user)), !Absent(db(UserAssessment, user)))
  }

  /** Routing agrees with the reference funnel: the single navigation goes to
      the path of the user's stage. */
  lemma RouteUserFollowsFunnel(user: UserId, db: Db)
    ensures Navigations(RouteUser(user, db)) == [StagePath(StageOf(user, db))]
  {
    var e := RouteUser(user, db);
    if Absent(db(UserOnboarding, user)) {
      assert e == [Select(UserOnboarding, user), Navigate(OnboardingPath)];
      assert Navigations(e[1..]) == [OnboardingPath];
    } else {
      assert Navigations(e[2..]) == [StagePath(StageOf(user, db))];
      assert Navigations(e[1..]) == Navigations(e[2..]);
    }
  }

  /** A store that reports more records never sends the user backwards. */
  lemma RoutingMonotone(user: UserId, db1: Db, db2: Db)
    requires Absent(db2(UserOnboarding, user)) ==> Absent(db1(UserOnboarding, user))
    requires Absent(db2(UserAssessment, user)) ==> Absent(db1(UserAssessment, user))
    ensures Rank(StageOf(user, db1)) <= Rank(StageOf(user, db2))
  {
  }

  /** A transient failure on either lookup routes like a present record,
      never back to an earlier stage. */
  lemma OtherErrorsCountAsPresent(user: UserId, db: Db)
    requires db(UserOnboarding, user).LookupError? && db(UserOnboarding, user).code != NotFoundCode
    ensures Navigate(OnboardingPath) !in RouteUser(user, db)
    ensures Select(UserAssessment, user) in RouteUser(user, db)
  {
  }

  // ---------------------------------------------------------------------
  // Page state, bootstrap and listener
  // ---------------------------------------------------------------------

  datatype Mode = Login | Signup

  datatype AuthState = AuthState(
    email: string,
    password: string,
    mode: Mode,
    loading: bool,
    error: string,
    checkingSession: bool,
    awaitingVerification: bool,
    listening: bool)

  function Initial(): AuthState {
    AuthState("", "", Login, false, "", true, false, false)
  }

  /** Mounting asks for the cached session and registers the listener
      straight away; the answer to the session request arrives later
      (see Bootstrap). */
  function Mount(s: AuthState): (r: Step<AuthState>)
    ensures r.effects == [GetSession, Subscribe]
    ensures r.state.listening
    ensures r.state == s.(listening := true)
  {
    Step(s.(listening := true), [GetSession, Subscribe])
  }

  /** Continuation of the cached-session request: a cached user is routed
      and the spinner stays up; without one the form is revealed and nothing
      navigates. */
  function Bootstrap(s: AuthState, cached: Option<UserId>, db: Db): (r: Step<AuthState>)
    ensures cached.Some? ==> r.state == s && |Navigations(r.effects)| == 1
    ensures cached.Some? ==> Navigations(r.effects) == [StagePath(StageOf(cached.value, db))]
    ensures cached.Some? ==> r.effects == RouteUser(cached.value, db)
    ensures cached.None? ==> r.effects == [] && r.state == s.(checkingSession := false)
  {
    match cached
    case Some(u) =>
      RouteUserFollowsFunnel(u, db);
      Step(s, RouteUser(u, db))
    case None => Step(s.(checkingSession := false), [])
  }

  /** True for the events the listener reacts to. */
  predicate Routes(ev: AuthEvent) {
    ev.kind == SignedIn && ev.user.Some?
  }

  /** The listener: only a sign-in carrying a user triggers routing, and only
      while the subscription is held. */
  function OnAuthStateChange(s: AuthState, ev: AuthEvent, db: Db): (effects: seq<Effect>)
    ensures s.listening && Routes(ev) ==>
              Navigations(effects) == [StagePath(StageOf(ev.user.value, db))]
    ensures s.listening && Routes(ev) ==> effects == RouteUser(ev.user.value, db)
    ensures !(s.listening && Routes(ev)) ==> effects == []
  {
    if s.listening && Routes(ev) then
      RouteUserFollowsFunnel(ev.user.value, db);
      RouteUser(ev.user.value, db)
    else []
  }

  /** Events delivered in arrival order; each is fully handled before the next. */
  function Listen(s: AuthState, events: seq<AuthEvent>, db: Db): seq<Effect> {
    if events == [] then []
    else OnAuthStateChange(s, events[0], db) + Listen(s, events[1..], db)
  }

  /** Number of events that trigger routing. */
  function CountRouting(events: seq<AuthEvent>): nat {
    if events == [] then 0
    else (if Routes(events[0]) then 1 else 0) + CountRouting(events[1..])
  }

  /** While subscribed, the page navigates exactly once per sign-in event
      that carries a user, and never for any other event. */
  lemma {:induction false} ListenNavigatesPerSignIn(s: AuthState, events: seq<AuthEvent>, db: Db)
    requires s.listening
    ensures |Navigations(Listen(s, events, db))| == CountRouting(events)
  {
    if events != [] {
      NavigationsAppend(OnAuthStateChange(s, events[0], db), Listen(s, events[1..], db));
      ListenNavigatesPerSignIn(s, events[1..], db);
    }
  }

  /** Tearing the page down releases the subscription. */
  function Teardown(s: AuthState): (r: Step<AuthState>)
    ensures Unsubscribe in r.effects
    ensures !r.state.listening
    ensures r.state == s.(listening := false)
    ensures r.effects == [Unsubscribe]
  {
    Step(s.(listening := false), [Unsubscribe])
  }

  /** After teardown no event has any effect. */
  lemma {:induction false} NothingAfterTeardown(s: AuthState, events: seq<AuthEvent>, db: Db)
    ensures Listen(Teardown(s).state, events, db) == []
  {
    if events != [] {
      NothingAfterTeardown(s, events[1..], db);
    }
  }

  // ---------------------------------------------------------------------
  // Credential form
  // ---------------------------------------------------------------------

  const CredentialsRequired: string := "Identity credentials required."

  /** Reply of the identity provider to a password sign-in or a sign-up. */
  datatype ProviderReply = Accepted(user: UserId) | Refused(message: string)

  /** Submitting the form: empty credentials are refused locally; otherwise
      the provider is called in the current mode. A successful login is
      routed, a successful signup waits for e-mail verification, a refusal
      stores its message. Loading is off afterwards in every case. */
  function Submit(s: AuthState, reply: ProviderReply, db: Db): (r: Step<AuthState>)
    ensures s.email == "" || s.password == "" ==>
              r.effects == [] && r.state == s.(error := CredentialsRequired)
    ensures s.email != "" && s.password != "" ==> !r.state.loading && |r.effects| > 0
    ensures s.email != "" && s.password != "" ==>
              r.effects[0] == (if s.mode == Login then SignInWithPassword(s.email, s.password)
                               else SignUp(s.email, s.password))
    ensures s.email != "" && s.password != "" ==>
              r.state.error == (if reply.Refused? then reply.message else "")
    ensures s.email != "" && s.password != "" ==>
              (r.state.awaitingVerification <==>
                 s.awaitingVerification || (s.mode.Signup? && reply.Accepted?))
    ensures s.email != "" && s.password != "" ==>
              (|Navigations(r.effects)| == 1 <==> s.mode == Login && reply.Accepted?)
    ensures s.email != "" && s.password != "" ==>
              (Navigations(r.effects) == [] <==> !(s.mode == Login && reply.Accepted?))
    ensures s.email != "" && s.password != "" && reply.Refused? ==> r.effects == [r.effects[0]]
    ensures s.email != "" && s.password != "" && s.mode.Signup? && reply.Accepted? ==>
              r.effects == [r.effects[0]]
    ensures s.email != "" && s.password != "" && s.mode.Login? && reply.Accepted? ==>
              r.effects == [r.effects[0]] + RouteUser(reply.user, db)
    ensures r.state.email == s.email && r.state.password == s.password && r.state.mode == s.mode
    ensures r.state.checkingSession == s.checkingSession && r.state.listening == s.listening
  {
    if s.email == "" || s.password == "" then
      Step(s.(error := CredentialsRequired), [])
    else
      var call := if s.mode == Login then SignInWithPassword(s.email, s.password)
                  else SignUp(s.email, s.password);
      assert Navigations([call]) == [] by { assert [call][1..] == []; }
      match reply
      case Refused(m) =>
        Step(s.(loading := false, error := m), [call])
      case Accepted(u) =>
        if s.mode == Login then
          var routed := RouteUser(u, db);
          NavigationsAppend([call], routed);
          Step(s.(loading := false, error := ""), [call] + routed)
        else
          Step(s.(loading := false, error := "", awaitingVerification := true), [call])
  }

  /** Login success sends the user to the path of their funnel stage. */
  lemma LoginRoutesByStage(s: AuthState, u: UserId, db: Db)
    requires s.email != "" && s.password != "" && s.mode == Login
    ensures Navigations(Submit(s, Accepted(u), db).effects) == [StagePath(StageOf(u, db))]
  {
    var call := SignInWithPassword(s.email, s.password);
    NavigationsAppend([call], RouteUser(u, db));
    RouteUserFollowsFunnel(u, db);
  }

  /** The provider also announces a password sign-in to the page's own
      listener, so while subscribed an accepted login is routed twice: once
      by the submit handler and once by the listener, both times to the
      same funnel stage. */
  lemma LoginThenListenerRoutesTwice(s: AuthState, u: UserId, db: Db)
    requires s.email != "" && s.password != "" && s.mode == Login && s.listening
    ensures var r := Submit(s, Accepted(u), db);
            Navigations(r.effects + OnAuthStateChange(r.state, AuthEvent(SignedIn, Some(u)), db))
              == [StagePath(StageOf(u, db)), StagePath(StageOf(u, db))]
  {
    var r := Submit(s, Accepted(u), db);
    LoginRoutesByStage(s, u, db);
    NavigationsAppend(r.effects, OnAuthStateChange(r.state, AuthEvent(SignedIn, Some(u)), db));
  }

  /** Returning from the OAuth provider yields a cached session and a
      sign-in event at once, so the bootstrap and the listener each route
      the user, to the same funnel stage. */
  lemma BootstrapThenListenerRoutesTwice(s: AuthState, u: UserId, db: Db)
    requires s.listening
    ensures var r := Bootstrap(s, Some(u), db);
            Navigations(r.effects + OnAuthStateChange(r.state, AuthEvent(SignedIn, Some(u)), db))
              == [StagePath(StageOf(u, db)), StagePath(StageOf(u, db))]
  {
    var r := Bootstrap(s, Some(u), db);
    NavigationsAppend(r.effects, OnAuthStateChange(r.state, AuthEvent(SignedIn, Some(u)), db));
  }

  /** The "No account? / Already onboarded?" link. */
  function ToggleMode(s: AuthState): (r: AuthState)
    ensures r.mode != s.mode
    ensures r == s.(mode := r.mode)
  {
    s.(mode := if s.mode == Login then Signup else Login)
  }

  lemma ToggleModeTwice(s: AuthState)
    ensures ToggleMode(ToggleMode(s)) == s
  {
  }

  /** The "I've verified" button on the verification screen. */
  function AcknowledgeVerification(s: AuthState): (r: AuthState)
    ensures !r.awaitingVerification
    ensures r.(awaitingVerification := s.awaitingVerification) == s
  {
    s.(awaitingVerification := false)
  }

  datatype Screen = VerifyEmail | SyncingSpinner | CredentialsForm

  /** The verification screen takes precedence over the session spinner,
      which takes precedence over the form. */
  function ScreenOf(s: AuthState): (v: Screen)
    ensures v == CredentialsForm <==> !s.awaitingVerification && !s.checkingSession
    ensures v == VerifyEmail <==> s.awaitingVerification
  {
    if s.awaitingVerification then VerifyEmail
    else if s.checkingSession then SyncingSpinner
    else CredentialsForm
  }

  /** Without a cached user the form appears once the bootstrap returns. */
  lemma BootstrapRevealsForm(s: AuthState, db: Db)
    requires !s.awaitingVerification
    ensures ScreenOf(Bootstrap(s, None, db).state) == CredentialsForm
  {
  }
}

=== FILE: base.dfy ===
/** Shared vocabulary of the OnTrack front end: optional values, the page
    paths, the persisted tables and their rows, and the observable effects a
    page handler performs (provider calls, table reads and writes, the AI job
    trigger, alerts and navigations). Every page module describes its handlers
    as pure functions from the current page state and the replies of the
    outside world to a new page state plus the list of effects, in order. */
module Base {

  datatype Option<+T> = None | Some(value: T) {
    function GetOr(default: T): T {
      match this
      case Some(v) => v
      case None => default
    }
  }

  /** The identifier the identity provider assigns to a signed-in user. */
  type UserId = string

  // The five client-side paths of the application.
  const RootPath: string := "/"
  const AuthPath: string := "/auth"
  const OnboardingPath: string := "/onboarding"
  const AssessmentPath: string := "/assessment"
  const DashboardPath: string := "/dashboard"

  /** The tables of the record store the pages touch. */
  datatype Table = UserOnboarding | UserAssessment | UsersState | UserResources

  /** Row written by the onboarding form. */
  datatype OnboardingRow = OnboardingRow(
    user_id: UserId,
    full_name: string,
    college: string,
    year: string,
    daily_hours: string,
    goal: string)

  /** Row written by the assessment form; a missing handle is stored as null. */
  datatype AssessmentRow = AssessmentRow(
    user_id: UserId,
    skill_summary: string,
    interests: string,
    github_username: Option<string>,
    leetcode_username: Option<string>)

  datatype Row = OnboardingData(onboarding: OnboardingRow) | AssessmentData(assessment: AssessmentRow)

  /** Kinds of identity-provider events delivered to a subscription. */
  datatype EventKind = InitialSession | SignedIn | SignedOut | TokenRefreshed | UserUpdated | PasswordRecovery

  /** An identity-provider event together with the user of its session, if any. */
  datatype AuthEvent = AuthEvent(kind: EventKind, user: Option<UserId>)

  /** Outcome of a write to the record store. */
  datatype WriteReply = Written | WriteFailed(message: string)

  /** What a handler does to the outside world, in the order it does it. */
  datatype Effect =
    | GetSession                                 // cached-session check
    | GetUser                                    // server-verified user check
    | Subscribe                                  // register an auth-event listener
    | Unsubscribe                                // release the auth-event listener
    | SignInWithPassword(email: string, password: string)
    | SignUp(email: string, password: string)
    | SignOut
    | Select(table: Table, user: UserId)         // read the user's row of a table
    | Upsert(row: Row)
    | TriggerAnalysis(user: UserId)              // POST to the AI back end
    | Alert(message: string)
    | Navigate(path: string)

  /** A handler's result: the new page state and the effects it performed. */
  datatype Step<S> = Step(state: S, effects: seq<Effect>)

  /** The paths navigated to by a list of effects, in order. */
  function Navigations(effects: seq<Effect>): (paths: seq<string>)
    ensures |paths| <= |effects|
    ensures forall p :: p in paths <==> Navigate(p) in effects
    ensures paths == [] <==> forall i :: 0 <= i < |effects| ==> !effects[i].Navigate?
  {
    if effects == [] then []
    else
      var rest := Navigations(effects[1..]);
      assert effects == [effects[0]] + effects[1..];
      if effects[0].Navigate? then [effects[0].path] + rest else rest
  }

  lemma {:induction false} NavigationsAppend(a: seq<Effect>, b: seq<Effect>)
    ensures Navigations(a + b) == Navigations(a) + Navigations(b)
  {
    if a == [] {
      assert a + b == b;
    } else {
      assert (a + b)[1..] == a[1..] + b;
      NavigationsAppend(a[1..], b);
    }
  }

  /** True when the effects touch neither the provider nor the store nor the back end. */
  predicate Offline(effects: seq<Effect>) {
    forall i :: 0 <= i < |effects| ==> effects[i].Alert? || effects[i].Navigate?
  }

  function Min(a: int, b: int): int {
    if a <= b then a else b
  }

  // ---------------------------------------------------------------------
  // ASCII lower-casing, shared by route matching and skill labels
  // ---------------------------------------------------------------------

  predicate IsUpper(c: char) {
    'A' <= c <= 'Z'
  }

  function LowerChar(c: char): (d: char)
    ensures !IsUpper(d)
    ensures !IsUpper(c) ==> d == c
    ensures IsUpper(c) ==> d as int == c as int + 32
  {
    if IsUpper(c) then (c as int + 32) as char else c
  }

  /** Lower-casing, letter by letter. */
  function Lower(s: string): (r: string)
    ensures |r| == |s|
    ensures forall i :: 0 <= i < |s| ==> r[i] == LowerChar(s[i])
  {
    seq(|s|, i requires 0 <= i < |s| => LowerChar(s[i]))
  }

  lemma {:induction false} LowerIdempotent(s: string)
    ensures Lower(Lower(s)) == Lower(s)
  {
  }
}

=== FILE: courses.dfy ===
/** The dashboard's learning plan: the user's recommended resources, read
    once, then grouped under a normalised skill label, groups in the order
    their label first occurs and resources in their stored order. */
module CoursesView {
  import opened Base
  import Grouping

  datatype Resource = Resource(id: string, skill: string, title: string, link: string, provider: string, level: string)

  // ---------------------------------------------------------------------
  // Skill label normalisation: `skill.toLowerCase().trim()`
  // ---------------------------------------------------------------------

  /** The characters `trim` removes: white space and line terminators. */
  predicate IsSpace(c: char) {
    || c == ' ' || c == '\t' || c == '\n' || c == '\U{B}' || c == '\U{C}' || c == '\r'
    || c == '\U{A0}' || c == '\U{1680}' || ('\U{2000}' <= c <= '\U{200A}')
    || c == '\U{2028}' || c == '\U{2029}' || c == '\U{202F}' || c == '\U{205F}'
    || c == '\U{3000}' || c == '\U{FEFF}'
  }

  /** The string without its leading white space. */
  function TrimStart(s: string): (r: string)
    ensures |r| <= |s| && r == s[|s| - |r|..]
    ensures r == [] || !IsSpace(r[0])
    ensures forall i :: 0 <= i < |s| - |r| ==> IsSpace(s[i])
    decreases |s|
  {
    if s != [] && IsSpace(s[0]) then TrimStart(s[1..]) else s
  }

  /** The string without its trailing white space. */
  function TrimEnd(s: string): (r: string)
    ensures |r| <= |s| && r == s[..|r|]
    ensures r == [] || !IsSpace(r[|r| - 1])
    ensures forall i :: |r| <= i < |s| ==> IsSpace(s[i])
    decreases |s|
  {
    if s != [] && IsSpace(s[|s| - 1]) then TrimEnd(s[..|s| - 1]) else s
  }

  function Trim(s: string): string {
    TrimEnd(TrimStart(s))
  }

  /** `s[a..b]` is `s` without some of its white space at either end. */
  predicate PaddedInfix(s: string, a: int, b: int) {
    && 0 <= a <= b <= |s|
    && (forall i :: 0 <= i < a ==> IsSpace(s[i]))
    && (forall i :: b <= i < |s| ==> IsSpace(s[i]))
  }

  /** The grouping key of a skill label: the part of the label between its
      white-space ends, lower-cased, which itself has no white-space end. */
  function Key(skill: string): (k: string)
    ensures exists a, b :: PaddedInfix(skill, a, b) && k == Lower(skill[a..b])
    ensures k == [] || (!IsSpace(k[0]) && !IsSpace(k[|k| - 1]))
  {
    TrimLowerIsLowerInfix(skill);
    TrimIsInfix(Lower(skill));
    Trim(Lower(skill))
  }

  /** Trimming the lower-cased label keeps the lower-cased middle of the label. */
  lemma TrimLowerIsLowerInfix(skill: string)
    ensures exists a, b :: PaddedInfix(skill, a, b) && Trim(Lower(skill)) == Lower(skill[a..b])
  {
    var l := Lower(skill);
    var a, b := TrimBounds(l);
    LowerPaddedInfix(skill, a, b);
    LowerSlice(skill, a, b);
    assert PaddedInfix(skill, a, b) && Trim(Lower(skill)) == Lower(skill[a..b]);
  }

  lemma LowerSlice(s: string, a: int, b: int)
    requires 0 <= a <= b <= |s|
    ensures Lower(s[a..b]) == Lower(s)[a..b]
  {
  }

  /** Where the trimmed string sits in the original. */
  lemma TrimBounds(s: string) returns (a: int, b: int)
    ensures PaddedInfix(s, a, b) && Trim(s) == s[a..b]
  {
    TrimIsInfix(s);
    a, b :| 0 <= a <= b <= |s| && Trim(s) == s[a..b]
            && (forall i :: 0 <= i < a ==> IsSpace(s[i]))
            && (forall i :: b <= i < |s| ==> IsSpace(s[i]));
  }

  /** White-space padding of a lower-cased string is padding of the original. */
  lemma LowerPaddedInfix(s: string, a: int, b: int)
    requires PaddedInfix(Lower(s), a, b)
    ensures PaddedInfix(s, a, b)
  {
    forall i | 0 <= i < |s| && (i < a || b <= i) ensures IsSpace(s[i]) {
      LowerKeepsSpace(s[i]);
    }
  }

  /** What trimming means: the result is the infix of the input between
      white-space-only ends, and neither of its own ends is white space. */
  lemma TrimIsInfix(s: string)
    ensures exists a, b :: 0 <= a <= b <= |s| && Trim(s) == s[a..b]
              && (forall i :: 0 <= i < a ==> IsSpace(s[i]))
              && (forall i :: b <= i < |s| ==> IsSpace(s[i]))
    ensures Trim(s) == [] || (!IsSpace(Trim(s)[0]) && !IsSpace(Trim(s)[|Trim(s)| - 1]))
  {
    var t := TrimStart(s);
    var e := TrimEnd(t);
    var a := |s| - |t|;
    var b := a + |e|;
    assert e == s[a..b] by {
      assert t == s[a..];
      assert e == t[..|e|];
    }
    assert forall i :: 0 <= i < a ==> IsSpace(s[i]);
    forall i | b <= i < |s| ensures IsSpace(s[i]) {
      assert s[i] == t[i - a];
    }
    if e != [] {
      assert e[0] == t[0];
    }
  }

  /** A string with no white space at either end is its own trim. */
  lemma {:induction false} TrimOfTrimmed(s: string)
    requires s == [] || (!IsSpace(s[0]) && !IsSpace(s[|s| - 1]))
    ensures Trim(s) == s
  {
  }

  lemma TrimIdempotent(s: string)
    ensures Trim(Trim(s)) == Trim(s)
  {
    TrimIsInfix(s);
    TrimOfTrimmed(Trim(s));
  }

  /** Lower-casing keeps white space where it is. */
  lemma LowerKeepsSpace(c: char)
    ensures IsSpace(LowerChar(c)) <==> IsSpace(c)
  {
  }

  lemma {:induction false} TrimStartLower(s: string)
    ensures TrimStart(Lower(s)) == Lower(TrimStart(s))
    decreases |s|
  {
    if s != [] {
      LowerKeepsSpace(s[0]);
      assert Lower(s)[1..] == Lower(s[1..]);
      TrimStartLower(s[1..]);
    }
  }

  lemma {:induction false} TrimEndLower(s: string)
    ensures TrimEnd(Lower(s)) == Lower(TrimEnd(s))
    decreases |s|
  {
    if s != [] {
      LowerKeepsSpace(s[|s| - 1]);
      assert Lower(s)[..|s| - 1] == Lower(s[..|s| - 1]);
      TrimEndLower(s[..|s| - 1]);
    }
  }

  /** Trimming and lower-casing commute. */
  lemma TrimLowerCommute(s: string)
    ensures Trim(Lower(s)) == Lower(Trim(s))
  {
    TrimStartLower(s);
    TrimEndLower(TrimStart(s));
  }

  /** A key is already normalised. */
  lemma KeyIdempotent(skill: string)
    ensures Key(Key(skill)) == Key(skill)
  {
    var l := Lower(skill);
    TrimLowerCommute(l);
    LowerIdempotent(Trim(skill));
    TrimLowerCommute(skill);
    LowerIdempotent(skill);
    TrimIdempotent(l);
  }

  /** Labels that differ only in the case of their letters share a key. */
  lemma KeyIgnoresCase(skill: string)
    ensures Key(Lower(skill)) == Key(skill)
  {
    LowerIdempotent(skill);
  }

  lemma {:induction false} TrimStartSkipsPadding(pad: string, s: string)
    requires forall i :: 0 <= i < |pad| ==> IsSpace(pad[i])
    ensures TrimStart(pad + s) == TrimStart(s)
    decreases |pad|
  {
    if pad != [] {
      assert (pad + s)[1..] == pad[1..] + s;
      TrimStartSkipsPadding(pad[1..], s);
    } else {
      assert pad + s == s;
    }
  }

  lemma {:induction false} TrimEndSkipsPadding(s: string, pad: string)
    requires forall i :: 0 <= i < |pad| ==> IsSpace(pad[i])
    ensures TrimEnd(s + pad) == TrimEnd(s)
    decreases |pad|
  {
    if pad != [] {
      assert (s + pad)[..|s + pad| - 1] == s + pad[..|pad| - 1];
      TrimEndSkipsPadding(s, pad[..|pad| - 1]);
    } else {
      assert s + pad == s;
    }
  }

  lemma {:induction false} TrimStartAppend(s: string, pad: string)
    requires forall i :: 0 <= i < |pad| ==> IsSpace(pad[i])
    requires TrimStart(s) != []
    ensures TrimStart(s + pad) == TrimStart(s) + pad
    decreases |s|
  {
    if IsSpace(s[0]) {
      assert (s + pad)[1..] == s[1..] + pad;
      TrimStartAppend(s[1..], pad);
    }
  }

  /** White space around a label does not change its key. */
  lemma KeyIgnoresPadding(before: string, skill: string, after: string)
    requires forall i :: 0 <= i < |before| ==> IsSpace(before[i])
    requires forall i :: 0 <= i < |after| ==> IsSpace(after[i])
    ensures Key(before + skill + after) == Key(skill)
  {
    var lb, ls, la := Lower(before), Lower(skill), Lower(after);
    assert Lower(before + skill + after) == lb + ls + la;
    forall i | 0 <= i < |lb| ensures IsSpace(lb[i]) { LowerKeepsSpace(before[i]); }
    forall i | 0 <= i < |la| ensures IsSpace(la[i]) { LowerKeepsSpace(after[i]); }
    assert lb + ls + la == lb + (ls + la);
    TrimStartSkipsPadding(lb, ls + la);
    if TrimStart(ls) != [] {
      TrimStartAppend(ls, la);
      TrimEndSkipsPadding(TrimStart(ls), la);
    } else {
      AllSpaceTrimsAway(ls + la);
      AllSpaceTrimsAway(ls);
    }
  }

  lemma AllSpaceTrimsAway(s: string)
    requires forall i :: 0 <= i < |s| ==> IsSpace(s[i])
    ensures TrimStart(s) == []
  {
  }

  // ---------------------------------------------------------------------
  // The plan
  // ---------------------------------------------------------------------

  function SkillKey(r: Resource): string {
    Key(r.skill)
  }

  /** The resources grouped by normalised skill label. */
  function Grouped(rs: seq<Resource>): (gs: seq<Grouping.Group<Resource>>)
    ensures Grouping.DistinctKeys(gs)
    ensures Grouping.TotalSize(gs) == |rs|
    ensures forall i :: 0 <= i < |gs| ==> gs[i].items == Grouping.Matching(rs, SkillKey, gs[i].key)
    ensures forall k :: Grouping.HasKey(gs, k) <==> Grouping.Matching(rs, SkillKey, k) != []
  {
    Grouping.GroupBy(rs, SkillKey)
  }

  /** Every group label is a normalised key. */
  lemma GroupLabelsAreKeys(rs: seq<Resource>, i: nat)
    requires i < |Grouped(rs)|
    ensures Key(Grouped(rs)[i].key) == Grouped(rs)[i].key
  {
    var gs := Grouped(rs);
    assert Grouping.HasKey(gs, gs[i].key);
    var m := Grouping.Matching(rs, SkillKey, gs[i].key);
    Grouping.MatchingKeys(rs, SkillKey, gs[i].key);
    assert m[0] in m;
    KeyIdempotent(m[0].skill);
  }

  /** Two resources are shown in the same group exactly when their skill
      labels normalise to the same key. */
  lemma SameGroupIffSameKey(rs: seq<Resource>, p: nat, q: nat)
    requires p < |rs| && q < |rs|
    ensures Grouping.HasKey(Grouped(rs), SkillKey(rs[p]))
    ensures rs[q] in Grouped(rs)[Grouping.GroupOf(Grouped(rs), SkillKey(rs[p]))].items
            <==> Key(rs[q].skill) == Key(rs[p].skill)
  {
    var gs := Grouped(rs);
    Grouping.ElementInOwnGroup(rs, SkillKey, p);
    Grouping.ElementInOwnGroup(rs, SkillKey, q);
    var g := Grouping.GroupOf(gs, SkillKey(rs[p]));
    Grouping.GroupMembersShareKey(rs, SkillKey);
  }

  /** Groups are listed in the order their labels first occur. */
  lemma PlanInFirstSeenOrder(rs: seq<Resource>)
    ensures var gs := Grouped(rs);
            forall i :: 0 <= i < |gs| ==> Grouping.Matching(rs, SkillKey, gs[i].key) != []
    ensures var gs := Grouped(rs);
            forall i, j :: 0 <= i < j < |gs| ==>
              Grouping.FirstIndex(rs, SkillKey, gs[i].key) < Grouping.FirstIndex(rs, SkillKey, gs[j].key)
  {
    var gs := Grouped(rs);
    forall i | 0 <= i < |gs| ensures Grouping.Matching(rs, SkillKey, gs[i].key) != [] {
      assert Grouping.HasKey(gs, gs[i].key);
    }
    forall i, j | 0 <= i < j < |gs|
      ensures Grouping.FirstIndex(rs, SkillKey, gs[i].key) < Grouping.FirstIndex(rs, SkillKey, gs[j].key)
    {
      Grouping.GroupsInFirstSeenOrder(rs, SkillKey, i, j);
    }
  }

  // ---------------------------------------------------------------------
  // Page state
  // ---------------------------------------------------------------------

  datatype CoursesState = CoursesState(resources: seq<Resource>, loading: bool)

  function Initial(): CoursesState {
    CoursesState([], true)
  }

  /** The single read of the user's resources; a null answer (nothing found
      or an error, which is not looked at) becomes the empty list. */
  function Load(s: CoursesState, user: UserId, data: Option<seq<Resource>>): (r: Step<CoursesState>)
    ensures r.effects == [Select(UserResources, user)]
    ensures !r.state.loading
    ensures r.state.resources == data.GetOr([])
  {
    Step(CoursesState(data.GetOr([]), false), [Select(UserResources, user)])
  }

  datatype Screen = LoadingLine | Plan(groups: seq<Grouping.Group<Resource>>)

  /** The loading line until the read has answered, then the plan: one
      group per distinct key holding, in stored order, exactly the
      resources with that key. */
  function ScreenOf(s: CoursesState): (v: Screen)
    ensures v.LoadingLine? <==> s.loading
    ensures v.Plan? ==> Grouping.DistinctKeys(v.groups) && Grouping.TotalSize(v.groups) == |s.resources|
    ensures v.Plan? ==> forall i :: 0 <= i < |v.groups| ==>
              v.groups[i].items == Grouping.Matching(s.resources, SkillKey, v.groups[i].key)
    ensures v.Plan? ==> forall p :: 0 <= p < |s.resources| ==>
              Grouping.HasKey(v.groups, Key(s.resources[p].skill))
    ensures v.Plan? ==> v.groups == Grouped(s.resources)
  {
    if s.loading then LoadingLine
    else
      var gs := Grouped(s.resources);
      assert forall p :: 0 <= p < |s.resources| ==> Grouping.HasKey(gs, Key(s.resources[p].skill)) by {
        forall p | 0 <= p < |s.resources| ensures Grouping.HasKey(gs, Key(s.resources[p].skill)) {
          SameGroupIffSameKey(s.resources, p, p);
        }
      }
      Plan(gs)
  }

  /** After the read the plan is shown, holding every resource read; with no
      rows (or a failed read) it is shown empty. */
  lemma LoadedPlanShowsEverything(user: UserId, data: Option<seq<Resource>>)
    ensures var v := ScreenOf(Load(Initial(), user, data).state);
            && v.Plan?
            && Grouping.TotalSize(v.groups) == |data.GetOr([])|
            && (data.None? ==> v.groups == [])
  {
  }
}

=== FILE: dashboard.dfy ===
/** The dashboard: its entry gate (only a signed-in user is required), the
    three table reads it stores for its views, the tab selection that picks
    one view, logout, and the two counters of the loading screen. */
module DashboardPage {
  import opened Base
  import Routes

  /** A stored row as the dashboard receives it: column name to value. */
  type Record = map<string, string>

  /** What the page keeps from its reads; every part may be null. */
  datatype DashData = DashData(
    user: Option<UserId>,
    state: Option<Record>,
    onboarding: Option<Record>,
    assessment: Option<Record>)

  /** `revealPending` records that the reveal timer has been armed. */
  datatype DashState = DashState(activeTab: string, data: DashData, loading: bool, revealPending: bool)

  function Initial(): DashState {
    DashState("dashboard", DashData(None, None, None, None), true, false)
  }

  /** The page leaves its loading screen only after a user's data has been
      stored, and arms the reveal only then. */
  predicate Inv(s: DashState) {
    (s.revealPending || !s.loading) ==> s.data.user.Some?
  }

  /** The `.data` part of a single-row read: the row, or null when the read
      found nothing or failed (the error is not looked at). */
  type Fetched = Table -> Option<Record>

  /** Loading: the server user check, then (for a user) the three reads,
      whose results are stored as they come, null or not; then the reveal
      timer is armed. There is no funnel-stage check: any signed-in user may
      stay. Without a user the page goes to sign-in and reads nothing. */
  function LoadData(s: DashState, user: Option<UserId>, fetched: Fetched): (r: Step<DashState>)
    ensures user.None? ==> r.state == s && r.effects == [GetUser, Navigate(AuthPath)]
    ensures user.Some? ==> Navigations(r.effects) == []
    ensures user.Some? ==> r.effects == [GetUser, Select(UsersState, user.value),
                                         Select(UserOnboarding, user.value),
                                         Select(UserAssessment, user.value)]
    ensures user.Some? ==> r.state.data == DashData(user, fetched(UsersState), fetched(UserOnboarding),
                                                    fetched(UserAssessment))
    ensures user.Some? ==> r.state.loading == s.loading && r.state.revealPending
    ensures r.state.activeTab == s.activeTab
    ensures Inv(s) ==> Inv(r.state)
  {
    match user
    case None => Step(s, [GetUser, Navigate(AuthPath)])
    case Some(u) =>
      var data := DashData(user, fetched(UsersState), fetched(UserOnboarding), fetched(UserAssessment));
      Step(s.(data := data, revealPending := true),
           [GetUser, Select(UsersState, u), Select(UserOnboarding, u), Select(UserAssessment, u)])
  }

  /** The reveal timer firing. */
  function Reveal(s: DashState): (r: DashState)
    ensures s.revealPending ==> !r.loading && !r.revealPending && r.data == s.data
    ensures !s.revealPending ==> r == s
    ensures r.activeTab == s.activeTab
    ensures Inv(s) ==> Inv(r)
  {
    if s.revealPending then s.(loading := false, revealPending := false) else s
  }

  /** A signed-in user always gets past the gate, whatever the two funnel
      records hold. */
  lemma AnyUserIsAdmitted(u: UserId, fetched: Fetched)
    ensures !Reveal(LoadData(Initial(), Some(u), fetched).state).loading
  {
  }

  // ---------------------------------------------------------------------
  // Views
  // ---------------------------------------------------------------------

  datatype Tab = Home | Roadmap | Protocol | Github | Leetcode | Courses | Coach | Profile

  /** The value each sidebar button stores in `activeTab`. */
  function TabName(t: Tab): string {
    match t
    case Home => "dashboard"
    case Roadmap => "roadmap"
    case Protocol => "protocol"
    case Github => "github"
    case Leetcode => "leetcode"
    case Courses => "courses"
    case Coach => "coach"
    case Profile => "profile"
  }

  /** A view and the part of the stored data it is given. */
  datatype View =
    | HomeView(onboarding: Option<Record>, state: Option<Record>)
    | RoadmapView(state: Option<Record>)
    | ProtocolView(state: Option<Record>)
    | GithubView(assessment: Option<Record>)
    | LeetcodeView(assessment: Option<Record>)
    | CoursesView(userId: Option<UserId>)
    | CoachView(onboarding: Option<Record>, state: Option<Record>, assessment: Option<Record>)
    | ProfileView(onboarding: Option<Record>, assessment: Option<Record>)

  function ViewOf(t: Tab, d: DashData): View {
    match t
    case Home => HomeView(d.onboarding, d.state)
    case Roadmap => RoadmapView(d.state)
    case Protocol => ProtocolView(d.state)
    case Github => GithubView(d.assessment)
    case Leetcode => LeetcodeView(d.assessment)
    case Courses => CoursesView(d.user)
    case Coach => CoachView(d.onboarding, d.state, d.assessment)
    case Profile => ProfileView(d.onboarding, d.assessment)
  }

  /** The main area renders, in order, every view whose tab value equals
      `activeTab`. */
  function Rendered(activeTab: string, d: DashData): seq<View> {
    (if activeTab == "dashboard" then [ViewOf(Home, d)] else []) +
    (if activeTab == "roadmap" then [ViewOf(Roadmap, d)] else []) +
    (if activeTab == "protocol" then [ViewOf(Protocol, d)] else []) +
    (if activeTab == "github" then [ViewOf(Github, d)] else []) +
    (if activeTab == "leetcode" then [ViewOf(Leetcode, d)] else []) +
    (if activeTab == "courses" then [ViewOf(Courses, d)] else []) +
    (if activeTab == "coach" then [ViewOf(Coach, d)] else []) +
    (if activeTab == "profile" then [ViewOf(Profile, d)] else [])
  }

  /** Clicking a sidebar button. */
  function SelectTab(s: DashState, t: Tab): (r: DashState)
    ensures Rendered(r.activeTab, r.data) == [ViewOf(t, s.data)]
    ensures r.data == s.data && r.loading == s.loading
    ensures r.revealPending == s.revealPending
  {
    TabSelectsOneView(t, s.data);
    s.(activeTab := TabName(t))
  }

  /** Each tab value renders exactly its own view and no other. */
  lemma TabSelectsOneView(t: Tab, d: DashData)
    ensures Rendered(TabName(t), d) == [ViewOf(t, d)]
  {
  }

  /** Distinct tabs store distinct values. */
  lemma TabNamesDistinct(t1: Tab, t2: Tab)
    ensures TabName(t1) == TabName(t2) ==> t1 == t2
  {
  }

  /** Any value no button stores renders nothing. */
  lemma UnknownTabRendersNothing(name: string, d: DashData)
    requires forall t: Tab :: TabName(t) != name
    ensures Rendered(name, d) == []
  {
    assert TabName(Home) != name && TabName(Roadmap) != name && TabName(Protocol) != name;
    assert TabName(Github) != name && TabName(Leetcode) != name && TabName(Courses) != name;
    assert TabName(Coach) != name && TabName(Profile) != name;
  }

  datatype Screen = LoadingScreen | Main(views: seq<View>)

  /** The loading protocol until `loading` drops, then the main area: the
      view of the selected tab, or nothing for a value no button stores. */
  function ScreenOf(s: DashState): (v: Screen)
    ensures v.LoadingScreen? <==> s.loading
    ensures v.Main? ==> |v.views| <= 1
    ensures v.Main? ==> forall t: Tab :: TabName(t) == s.activeTab ==> v.views == [ViewOf(t, s.data)]
    ensures v.Main? ==> (v.views == [] <==> forall t: Tab :: TabName(t) != s.activeTab)
  {
    var views := Rendered(s.activeTab, s.data);
    assert |views| <= 1 && (views == [] <==> forall t: Tab :: TabName(t) != s.activeTab) by {
      if exists t: Tab :: TabName(t) == s.activeTab {
        var t: Tab :| TabName(t) == s.activeTab;
        TabSelectsOneView(t, s.data);
      } else {
        UnknownTabRendersNothing(s.activeTab, s.data);
      }
    }
    assert forall t: Tab :: TabName(t) == s.activeTab ==> views == [ViewOf(t, s.data)] by {
      forall t: Tab | TabName(t) == s.activeTab ensures views == [ViewOf(t, s.data)] {
        TabSelectsOneView(t, s.data);
      }
    }
    if s.loading then LoadingScreen else Main(views)
  }

  /** Once past the loading screen, the courses view always receives a user. */
  lemma CoursesViewHasUser(s: DashState)
    requires Inv(s) && !s.loading && s.activeTab == TabName(Courses)
    ensures ScreenOf(s) == Main([CoursesView(s.data.user)]) && s.data.user.Some?
  {
    TabSelectsOneView(Courses, s.data);
  }

  /** Logout: sign out without waiting, then go to the landing page. */
  function Logout(s: DashState): (r: Step<DashState>)
    ensures r.state == s
    ensures SignOut in r.effects
    ensures |Navigations(r.effects)| == 1
    ensures Routes.Settle(Navigations(r.effects)[0]) == Routes.Landing
    ensures r.effects == [SignOut, Navigate(RootPath)]
  {
    assert Navigations([SignOut, Navigate(RootPath)]) == [RootPath] by {
      assert [SignOut, Navigate(RootPath)][1..] == [Navigate(RootPath)];
      assert [Navigate(RootPath)][1..] == [];
    }
    Step(s, [SignOut, Navigate(RootPath)])
  }

  // ---------------------------------------------------------------------
  // Loading screen counters
  // ---------------------------------------------------------------------

  const TotalDuration: int := 4000
  const IntervalTime: int := 40
  /** 100 / (4000 / 40): exactly 1 percent per tick. */
  const Increment: int := 100 / (TotalDuration / IntervalTime)
  const BootLogCount: nat := 11

  /** One progress tick, clamped at 100. */
  function PercentTick(prev: int): int {
    var next := prev + Increment;
    if next >= 100 then 100 else next
  }

  function PercentAfter(n: nat): int {
    if n == 0 then 0 else PercentTick(PercentAfter(n - 1))
  }

  /** The bar rises one percent per tick, never past 100, never backwards. */
  lemma {:induction false} PercentAfterBounded(n: nat)
    ensures PercentAfter(n) == Min(n, 100)
    ensures PercentAfter(n) <= PercentAfter(n + 1) <= 100
  {
    if n > 0 {
      PercentAfterBounded(n - 1);
    }
  }

  /** One log rotation, stopping at the last log line. */
  function LogTick(prev: int): int {
    if prev < BootLogCount - 1 then prev + 1 else prev
  }

  function LogIndexAfter(n: nat): int {
    if n == 0 then 0 else LogTick(LogIndexAfter(n - 1))
  }

  /** The log index advances one line per tick up to the last line. */
  lemma {:induction false} LogIndexAfterBounded(n: nat)
    ensures LogIndexAfter(n) == Min(n, BootLogCount - 1)
    ensures 0 <= LogIndexAfter(n) <= LogIndexAfter(n + 1) <= BootLogCount - 1
  {
    if n > 0 {
      LogIndexAfterBounded(n - 1);
    }
  }
}

=== FILE: github.dfy ===
/** The GitHub panel of the dashboard: which username it looks up, how it
    aggregates the user's repositories (star sum, language tally, top
    language), the defaults it fills in, and what it renders. */
module GithubStats {
  import opened Base
  import Grouping

  // ---------------------------------------------------------------------
  // Username
  // ---------------------------------------------------------------------

  /** The two assessment fields the panel may take a username from. */
  datatype AssessmentInfo = AssessmentInfo(github_username: Option<string>, github_handle: Option<string>)

  /** A string value that is present and non-empty. */
  predicate Truthy(v: Option<string>) {
    v.Some? && v.value != ""
  }

  /** `github_username` when it is non-empty, otherwise `github_handle`;
      None stands for every empty or missing outcome. */
  function Username(a: Option<AssessmentInfo>): (u: Option<string>)
    ensures u.Some? ==> u.value != ""
    ensures a.Some? && Truthy(a.value.github_username) ==> u == a.value.github_username
    ensures a.Some? && !Truthy(a.value.github_username) && Truthy(a.value.github_handle) ==>
              u == a.value.github_handle
    ensures u.None? <==>
              a.None? || (!Truthy(a.value.github_username) && !Truthy(a.value.github_handle))
  {
    match a
    case None => None
    case Some(info) =>
      if Truthy(info.github_username) then info.github_username
      else if Truthy(info.github_handle) then info.github_handle
      else None
  }

  // ---------------------------------------------------------------------
  // Repository aggregation
  // ---------------------------------------------------------------------

  datatype Repo = Repo(stargazers_count: int, language: Option<string>)

  /** The repository listing answer: a list, or any other JSON value (for
      example an error object). */
  datatype ReposReply = RepoList(repos: seq<Repo>) | NotAList

  /** A repository whose language is counted. */
  predicate Tallied(r: Repo) {
    Truthy(r.language)
  }

  function LangKey(r: Repo): string {
    if r.language.Some? then r.language.value else ""
  }

  datatype LangCount = LangCount(lang: string, count: nat)

  /** `languages[l] = (languages[l] || 0) + 1` on an insertion-ordered object. */
  function Bump(t: seq<LangCount>, l: string): seq<LangCount>
    decreases |t|
  {
    if t == [] then [LangCount(l, 1)]
    else if t[0].lang == l then [t[0].(count := t[0].count + 1)] + t[1..]
    else [t[0]] + Bump(t[1..], l)
  }

  /** The star total of the repositories. */
  function StarSum(repos: seq<Repo>): int
    decreases |repos|
  {
    if repos == [] then 0
    else StarSum(repos[..|repos| - 1]) + repos[|repos| - 1].stargazers_count
  }

  /** The language tally after visiting the repositories in order. */
  function Tally(repos: seq<Repo>): seq<LangCount>
    decreases |repos|
  {
    if repos == [] then []
    else
      var t := Tally(repos[..|repos| - 1]);
      var r := repos[|repos| - 1];
      if Tallied(r) then Bump(t, r.language.value) else t
  }

  /** The loop over the listing: one pass summing stars and tallying the
      languages that are set; a reply that is not a list leaves both empty. */
  method Aggregate(reply: ReposReply) returns (stars: int, tally: seq<LangCount>)
    ensures reply.NotAList? ==> stars == 0 && tally == []
    ensures reply.RepoList? ==> stars == StarSum(reply.repos) && tally == Tally(reply.repos)
  {
    stars := 0;
    tally := [];
    if reply.RepoList? {
      var repos := reply.repos;
      var i := 0;
      while i < |repos|
        invariant 0 <= i <= |repos|
        invariant stars == StarSum(repos[..i])
        invariant tally == Tally(repos[..i])
      {
        assert repos[..i + 1][..i] == repos[..i];
        stars := stars + repos[i].stargazers_count;
        if Tallied(repos[i]) {
          tally := Bump(tally, repos[i].language.value);
        }
        i := i + 1;
      }
      assert repos[..|repos|] == repos;
    }
  }

  /** The repositories whose language is counted, in order. */
  function TalliedRepos(repos: seq<Repo>): (rs: seq<Repo>)
    ensures |rs| <= |repos|
    ensures forall i :: 0 <= i < |rs| ==> Tallied(rs[i])
    decreases |repos|
  {
    if repos == [] then []
    else
      var init := TalliedRepos(repos[..|repos| - 1]);
      if Tallied(repos[|repos| - 1]) then init + [repos[|repos| - 1]] else init
  }

  /** The tally read off a grouping: each group's key with its size. */
  function Counts(gs: seq<Grouping.Group<Repo>>): (t: seq<LangCount>)
    ensures |t| == |gs|
    ensures forall i :: 0 <= i < |gs| ==> t[i] == LangCount(gs[i].key, |gs[i].items|)
    decreases |gs|
  {
    if gs == [] then [] else [LangCount(gs[0].key, |gs[0].items|)] + Counts(gs[1..])
  }

  lemma {:induction false} CountsInsert(gs: seq<Grouping.Group<Repo>>, k: string, x: Repo)
    requires Grouping.DistinctKeys(gs)
    ensures Counts(Grouping.Insert(gs, k, x)) == Bump(Counts(gs), k)
    decreases |gs|
  {
    if gs != [] && gs[0].key != k {
      Grouping.TailDistinct(gs);
      CountsInsert(gs[1..], k, x);
      assert Counts(gs)[1..] == Counts(gs[1..]);
    } else if gs != [] {
      assert Counts(gs)[1..] == Counts(gs[1..]);
    }
  }

  /** The tally is the grouping of the counted repositories by language,
      each group replaced by its size. */
  lemma {:induction false} TallyIsGrouping(repos: seq<Repo>)
    ensures Tally(repos) == Counts(Grouping.GroupBy(TalliedRepos(repos), LangKey))
    decreases |repos|
  {
    if repos != [] {
      var init := repos[..|repos| - 1];
      var r := repos[|repos| - 1];
      TallyIsGrouping(init);
      if Tallied(r) {
        var xs := TalliedRepos(repos);
        assert xs == TalliedRepos(init) + [r];
        assert xs[..|xs| - 1] == TalliedRepos(init);
        CountsInsert(Grouping.GroupBy(TalliedRepos(init), LangKey), LangKey(r), r);
      }
    }
  }

  /** Number of repositories whose language is `l`. */
  function Occurrences(repos: seq<Repo>, l: string): nat {
    |Grouping.Matching(repos, LangKey, l)|
  }

  lemma {:induction false} TalliedMatching(repos: seq<Repo>, l: string)
    requires l != ""
    ensures Grouping.Matching(TalliedRepos(repos), LangKey, l) == Grouping.Matching(repos, LangKey, l)
    decreases |repos|
  {
    if repos != [] {
      var init := repos[..|repos| - 1];
      var r := repos[|repos| - 1];
      TalliedMatching(init, l);
      if Tallied(r) {
        var xs := TalliedRepos(repos);
        assert xs[..|xs| - 1] == TalliedRepos(init);
      }
    }
  }

  /** What the tally means: one entry per distinct set language, holding
      the number of repositories written in it; the counts add up to the
      number of repositories with a language, at most the number of
      repositories; entries appear in the order languages are first met. */
  lemma TallyMeaning(repos: seq<Repo>)
    ensures var t := Tally(repos);
            && (forall i, j :: 0 <= i < j < |t| ==> t[i].lang != t[j].lang)
            && (forall i :: 0 <= i < |t| ==> t[i].lang != "" && t[i].count == Occurrences(repos, t[i].lang))
            && (forall i :: 0 <= i < |t| ==> t[i].count >= 1)
            && TotalCount(t) == |TalliedRepos(repos)| <= |repos|
  {
    var xs := TalliedRepos(repos);
    var gs := Grouping.GroupBy(xs, LangKey);
    TallyIsGrouping(repos);
    var t := Tally(repos);
    forall i | 0 <= i < |t|
      ensures t[i].lang != "" && t[i].count == Occurrences(repos, t[i].lang) && t[i].count >= 1
    {
      assert Grouping.HasKey(gs, gs[i].key);
      var m := Grouping.Matching(xs, LangKey, gs[i].key);
      assert m != [];
      Grouping.MatchingKeys(xs, LangKey, gs[i].key);
      assert m[0] in m;
      assert LangKey(m[0]) == gs[i].key;
      MatchingInTallied(xs, LangKey, gs[i].key);
      TalliedMatching(repos, t[i].lang);
    }
    CountsTotal(gs);
  }

  lemma MatchingInTallied(xs: seq<Repo>, key: Repo -> string, k: string)
    requires forall i :: 0 <= i < |xs| ==> Tallied(xs[i])
    requires key == LangKey
    ensures Grouping.Matching(xs, key, k) != [] ==> k != ""
  {
    if Grouping.Matching(xs, key, k) != [] {
      var m := Grouping.Matching(xs, key, k);
      Grouping.MatchingKeys(xs, key, k);
      assert m[0] in m;
      MatchingMembers(xs, key, k);
    }
  }

  lemma {:induction false} MatchingMembers(xs: seq<Repo>, key: Repo -> string, k: string)
    ensures forall y :: y in Grouping.Matching(xs, key, k) ==> y in xs
    decreases |xs|
  {
    if xs != [] {
      MatchingMembers(xs[..|xs| - 1], key, k);
      forall y | y in xs[..|xs| - 1] ensures y in xs {
        var q :| 0 <= q < |xs| - 1 && xs[..|xs| - 1][q] == y;
        assert xs[q] == y;
      }
    }
  }

  function TotalCount(t: seq<LangCount>): nat
    decreases |t|
  {
    if t == [] then 0 else t[0].count + TotalCount(t[1..])
  }

  lemma {:induction false} CountsTotal(gs: seq<Grouping.Group<Repo>>)
    ensures TotalCount(Counts(gs)) == Grouping.TotalSize(gs)
    decreases |gs|
  {
    if gs != [] {
      assert Counts(gs)[1..] == Counts(gs[1..]);
      CountsTotal(gs[1..]);
    }
  }

  // ---------------------------------------------------------------------
  // Top language
  // ---------------------------------------------------------------------

  /** Stable insertion by descending count: `e` goes after every entry whose
      count is at least its own. */
  function InsertDesc(s: seq<LangCount>, e: LangCount): (r: seq<LangCount>)
    ensures |r| == |s| + 1
    ensures s == [] || s[0].count < e.count ==> r[0] == e
    ensures s != [] && s[0].count >= e.count ==> r[0] == s[0]
    decreases |s|
  {
    if s == [] || s[0].count < e.count then [e] + s
    else [s[0]] + InsertDesc(s[1..], e)
  }

  /** `entries.sort((a, b) => b[1] - a[1])`: a stable sort by descending count. */
  function SortDesc(t: seq<LangCount>): (r: seq<LangCount>)
    ensures |r| == |t|
    decreases |t|
  {
    if t == [] then [] else InsertDesc(SortDesc(t[..|t| - 1]), t[|t| - 1])
  }

  /** The language of the first entry of the sorted tally, or "NONE" when
      the tally is empty or that language is the empty string: the first
      entry of greatest count wins. */
  function TopLang(t: seq<LangCount>): (top: string)
    ensures t == [] ==> top == "NONE"
    ensures t != [] ==> top == (if t[FirstMax(t)].lang == "" then "NONE" else t[FirstMax(t)].lang)
  {
    var sorted := SortDesc(t);
    assert t != [] ==> sorted[0] == t[FirstMax(t)] by {
      if t != [] { SortHeadIsFirstMax(t); }
    }
    if sorted == [] || sorted[0].lang == "" then "NONE" else sorted[0].lang
  }

  /** Position of the first entry with the greatest count. */
  function FirstMax(t: seq<LangCount>): (k: nat)
    requires t != []
    ensures k < |t|
    ensures forall j :: 0 <= j < |t| ==> t[j].count <= t[k].count
    ensures forall j :: 0 <= j < k ==> t[j].count < t[k].count
    decreases |t|
  {
    if |t| == 1 then 0
    else
      var k := FirstMax(t[..|t| - 1]);
      if t[|t| - 1].count > t[k].count then |t| - 1 else k
  }

  /** The head of the stable descending sort is the first entry of greatest
      count: ties go to the entry met first. */
  lemma {:induction false} SortHeadIsFirstMax(t: seq<LangCount>)
    requires t != []
    ensures SortDesc(t)[0] == t[FirstMax(t)]
    decreases |t|
  {
    if |t| > 1 {
      SortHeadIsFirstMax(t[..|t| - 1]);
    }
  }

  /** Every tallied language occurs among the counted repositories, at the
      position of its group. */
  lemma TallyEntryIsGroup(repos: seq<Repo>, j: nat)
    requires j < |Tally(repos)|
    ensures |Tally(repos)| == |Grouping.GroupBy(TalliedRepos(repos), LangKey)|
    ensures Tally(repos)[j].lang == Grouping.GroupBy(TalliedRepos(repos), LangKey)[j].key
    ensures Grouping.Matching(TalliedRepos(repos), LangKey, Tally(repos)[j].lang) != []
  {
    TallyIsGrouping(repos);
    var gs := Grouping.GroupBy(TalliedRepos(repos), LangKey);
    assert Grouping.HasKey(gs, gs[j].key);
  }

  /** No language is counted exactly when the tally is empty, and then the
      top language is "NONE"; otherwise it is the language of the first
      entry of greatest count, which occurs in at least as many repositories
      as any other. */
  lemma TopLangIsFirstMax(repos: seq<Repo>)
    ensures var t := Tally(repos);
            && (t == [] <==> TalliedRepos(repos) == [])
            && (t == [] ==> TopLang(t) == "NONE")
            && (t != [] ==> TopLang(t) == t[FirstMax(t)].lang)
            && (t != [] ==> forall j :: 0 <= j < |t| ==>
                  Occurrences(repos, t[j].lang) <= Occurrences(repos, t[FirstMax(t)].lang))
  {
    var t := Tally(repos);
    TallyMeaning(repos);
    if t == [] {
      assert SortDesc(t) == [];
    } else {
      SortHeadIsFirstMax(t);
      assert TotalCount(t) >= t[0].count >= 1;
    }
  }

  /** Ties go to the language met first: any other entry with the top count
      has its first repository later in the listing. */
  lemma TopLangTieBreak(repos: seq<Repo>, j: nat)
    requires j < |Tally(repos)|
    requires j != FirstMax(Tally(repos))
    requires Tally(repos)[j].count == Tally(repos)[FirstMax(Tally(repos))].count
    ensures Grouping.Matching(TalliedRepos(repos), LangKey, TopLang(Tally(repos))) != []
    ensures Grouping.Matching(TalliedRepos(repos), LangKey, Tally(repos)[j].lang) != []
    ensures Grouping.FirstIndex(TalliedRepos(repos), LangKey, TopLang(Tally(repos))) <
            Grouping.FirstIndex(TalliedRepos(repos), LangKey, Tally(repos)[j].lang)
  {
    var t := Tally(repos);
    var k := FirstMax(t);
    TopLangIsFirstMax(repos);
    TallyEntryIsGroup(repos, j);
    TallyEntryIsGroup(repos, k);
    assert j > k;
    Grouping.GroupsInFirstSeenOrder(TalliedRepos(repos), LangKey, k, j);
  }

  // ---------------------------------------------------------------------
  // Profile defaults and the fetch
  // ---------------------------------------------------------------------

  /** The profile answer's fields the panel uses. */
  datatype UserData = UserData(
    public_repos: Option<int>,
    followers: Option<int>,
    bio: Option<string>,
    location: Option<string>,
    created_at: Option<string>)

  datatype Stats = Stats(
    repos: int,
    stars: int,
    top_lang: string,
    followers: Option<int>,
    bio: Option<string>,
    location: Option<string>,
    created: string)

  /** `public_repos || 0`. */
  function RepoCount(u: UserData): (n: int)
    ensures u.public_repos.None? ==> n == 0
    ensures u.public_repos.Some? ==> n == u.public_repos.value
  {
    match u.public_repos
    case None => 0
    case Some(v) => if v == 0 then 0 else v
  }

  const NoDate: string := "----"

  /** `created_at?.slice(0, 10) || "----"`: the first ten characters of the
      creation timestamp (its date part), or dashes when there is none. */
  function Created(c: Option<string>): (d: string)
    ensures d == NoDate <==> !Truthy(c) || c.value[..Min(10, |c.value|)] == NoDate
    ensures Truthy(c) ==> d == c.value[..Min(10, |c.value|)]
    ensures Truthy(c) ==> |d| == Min(10, |c.value|) && d <= c.value
  {
    match c
    case None => NoDate
    case Some(s) =>
      var prefix := s[..Min(10, |s|)];
      if prefix == "" then NoDate else prefix
  }

  /** The statistics shown for a profile and its repository listing. */
  function BuildStats(u: UserData, reply: ReposReply): (st: Stats)
    ensures st.repos == RepoCount(u)
    ensures reply.NotAList? ==> st.stars == 0 && st.top_lang == "NONE"
    ensures reply.RepoList? ==> st.stars == StarSum(reply.repos) && st.top_lang == TopLang(Tally(reply.repos))
    ensures st.followers == u.followers && st.bio == u.bio && st.location == u.location
    ensures st.created == Created(u.created_at)
  {
    var stars := if reply.RepoList? then StarSum(reply.repos) else 0;
    var tally := if reply.RepoList? then Tally(reply.repos) else [];
    assert SortDesc([]) == [];
    Stats(RepoCount(u), stars, TopLang(tally), u.followers, u.bio, u.location, Created(u.created_at))
  }

  /** The two requests: the profile, then the repository listing. */
  datatype Outcome = Fetched(user: UserData, repos: ReposReply) | Threw

  datatype PanelState = PanelState(stats: Option<Stats>, loading: bool)

  function Initial(): PanelState {
    PanelState(None, true)
  }

  /** The fetch is started only for a username; when it has run, loading is
      off whether it succeeded or threw, and stats are set only on success. */
  function FetchGithubData(s: PanelState, username: Option<string>, o: Outcome): (r: PanelState)
    ensures username.None? ==> r == s
    ensures username.Some? ==> !r.loading
    ensures username.Some? && o.Fetched? ==> r.stats == Some(BuildStats(o.user, o.repos))
    ensures username.Some? && o.Threw? ==> r.stats == s.stats
  {
    if username.None? then s
    else
      match o
      case Threw => s.(loading := false)
      case Fetched(u, reply) => PanelState(Some(BuildStats(u, reply)), false)
  }

  datatype Screen = NoGithub | LoadingFrame | Panel(stats: Stats) | Unavailable | RenderCrash

  /** The render as written: after the status checks it reads the stats'
      fields unconditionally, which throws when they were never set. */
  function ScreenAsWritten(username: Option<string>, s: PanelState): (v: Screen)
    ensures v == NoGithub <==> username.None?
    ensures v == LoadingFrame <==> username.Some? && s.loading
    ensures v == RenderCrash <==> username.Some? && !s.loading && s.stats.None?
    ensures v.Panel? ==> v.stats == s.stats.value
    ensures v != Unavailable
  {
    if username.None? then NoGithub
    else if s.loading then LoadingFrame
    else if s.stats.None? then RenderCrash
    else Panel(s.stats.value)
  }

  /** A failed fetch leaves the panel rendering a field of a null object. */
  lemma FailedFetchCrashesRender(name: string)
    requires name != ""
    ensures ScreenAsWritten(Some(name), FetchGithubData(Initial(), Some(name), Threw)) == RenderCrash
  {
  }

  /** The render with a status frame for a fetch that produced no stats. */
  function ScreenOf(username: Option<string>, s: PanelState): (v: Screen)
    ensures v != RenderCrash
    ensures v == NoGithub <==> username.None?
    ensures v.Panel? <==> username.Some? && !s.loading && s.stats.Some?
    ensures v.Panel? ==> v.stats == s.stats.value
    ensures v == Unavailable <==> username.Some? && !s.loading && s.stats.None?
  {
    if username.None? then NoGithub
    else if s.loading then LoadingFrame
    else if s.stats.None? then Unavailable
    else Panel(s.stats.value)
  }

  /** The corrected render differs from the one as written only where the
      latter crashes, and there it shows the unavailable frame instead. */
  lemma CorrectionOnlyReplacesCrash(username: Option<string>, s: PanelState)
    ensures ScreenAsWritten(username, s) != RenderCrash ==>
              ScreenOf(username, s) == ScreenAsWritten(username, s)
    ensures ScreenAsWritten(username, s) == RenderCrash <==> ScreenOf(username, s) == Unavailable
  {
  }

  /** From mount, every fetch outcome ends on a screen that renders. */
  lemma EveryOutcomeRenders(a: Option<AssessmentInfo>, o: Outcome)
    ensures var u := Username(a);
            var v := ScreenOf(u, FetchGithubData(Initial(), u, o));
            && v != RenderCrash
            && (u.None? ==> v == NoGithub)
            && (u.Some? && o.Fetched? ==> v.Panel?)
            && (u.Some? && o.Threw? ==> v == Unavailable)
  {
  }
}

=== FILE: grouping.dfy ===
/** Grouping a sequence by a string key into an insertion-ordered table, the
    way a plain object used as a dictionary behaves when keys are added in a
    loop: a key's entry is created the first time the key is met and keeps
    its position; later elements with the same key join that entry in order. */
module Grouping {

  datatype Group<T> = Group(key: string, items: seq<T>)

  /** The elements of `xs` whose key is `k`, in their original order. */
  function Matching<T>(xs: seq<T>, key: T -> string, k: string): (m: seq<T>)
    ensures |m| <= |xs|
    decreases |xs|
  {
    if xs == [] then []
    else
      var init := Matching(xs[..|xs| - 1], key, k);
      if key(xs[|xs| - 1]) == k then init + [xs[|xs| - 1]] else init
  }

  predicate HasKey<T>(gs: seq<Group<T>>, k: string) {
    exists i :: 0 <= i < |gs| && gs[i].key == k
  }

  predicate DistinctKeys<T>(gs: seq<Group<T>>) {
    forall i, j :: 0 <= i < j < |gs| ==> gs[i].key != gs[j].key
  }

  /** Number of elements over all groups. */
  function TotalSize<T>(gs: seq<Group<T>>): nat
    decreases |gs|
  {
    if gs == [] then 0 else |gs[0].items| + TotalSize(gs[1..])
  }

  /** Files `x` under `k`: appended to the existing group of that key, or to
      a new group placed last. */
  function Insert<T>(gs: seq<Group<T>>, k: string, x: T): (r: seq<Group<T>>)
    requires DistinctKeys(gs)
    ensures DistinctKeys(r)
    ensures HasKey(r, k)
    ensures |r| == if HasKey(gs, k) then |gs| else |gs| + 1
    ensures forall i :: 0 <= i < |gs| ==> r[i].key == gs[i].key
    ensures forall i :: 0 <= i < |gs| ==>
              r[i].items == (if gs[i].key == k then gs[i].items + [x] else gs[i].items)
    ensures !HasKey(gs, k) ==> r[|gs|] == Group(k, [x])
    ensures TotalSize(r) == TotalSize(gs) + 1
    decreases |gs|
  {
    if gs == [] then
      assert [Group(k, [x])][0].key == k;
      [Group(k, [x])]
    else if gs[0].key == k then
      var r := [gs[0].(items := gs[0].items + [x])] + gs[1..];
      assert r[1..] == gs[1..];
      assert r[0].key == k;
      assert !HasKey(gs[1..], k) by {
        forall i | 0 <= i < |gs[1..]| ensures gs[1..][i].key != k {
          assert gs[1..][i] == gs[i + 1];
        }
      }
      r
    else
      TailDistinct(gs);
      var rest := Insert(gs[1..], k, x);
      InsertCons(gs, k, x, rest);
      [gs[0]] + rest
  }

  lemma TailDistinct<T>(gs: seq<Group<T>>)
    requires gs != [] && DistinctKeys(gs)
    ensures DistinctKeys(gs[1..])
  {
    forall i, j | 0 <= i < j < |gs[1..]| ensures gs[1..][i].key != gs[1..][j].key {
      assert gs[1..][i] == gs[i + 1] && gs[1..][j] == gs[j + 1];
    }
  }

  /** The recursive case of Insert: the head group has another key, and the
      tail has been filed into. */
  lemma InsertCons<T>(gs: seq<Group<T>>, k: string, x: T, rest: seq<Group<T>>)
    requires gs != [] && gs[0].key != k && DistinctKeys(gs)
    requires DistinctKeys(rest) && HasKey(rest, k)
    requires |rest| == if HasKey(gs[1..], k) then |gs| - 1 else |gs|
    requires forall i :: 0 <= i < |gs| - 1 ==> rest[i].key == gs[1..][i].key
    requires forall i :: 0 <= i < |gs| - 1 ==>
               rest[i].items == (if gs[1..][i].key == k then gs[1..][i].items + [x] else gs[1..][i].items)
    requires !HasKey(gs[1..], k) ==> rest[|gs| - 1] == Group(k, [x])
    requires TotalSize(rest) == TotalSize(gs[1..]) + 1
    ensures var r := [gs[0]] + rest;
            && DistinctKeys(r)
            && HasKey(r, k)
            && |r| == (if HasKey(gs, k) then |gs| else |gs| + 1)
            && (forall i :: 0 <= i < |gs| ==> r[i].key == gs[i].key)
            && (forall i :: 0 <= i < |gs| ==>
                  r[i].items == (if gs[i].key == k then gs[i].items + [x] else gs[i].items))
            && (!HasKey(gs, k) ==> r[|gs|] == Group(k, [x]))
            && TotalSize(r) == TotalSize(gs) + 1
  {
    var r := [gs[0]] + rest;
    assert r[1..] == rest;
    assert HasKey(gs, k) <==> HasKey(gs[1..], k) by {
      if HasKey(gs, k) {
        var i :| 0 <= i < |gs| && gs[i].key == k;
        assert gs[1..][i - 1] == gs[i];
      }
      if HasKey(gs[1..], k) {
        var i :| 0 <= i < |gs[1..]| && gs[1..][i].key == k;
        assert gs[i + 1] == gs[1..][i];
      }
    }
    forall i | 0 <= i < |gs|
      ensures r[i].key == gs[i].key
      ensures r[i].items == (if gs[i].key == k then gs[i].items + [x] else gs[i].items)
    {
      if i > 0 { assert r[i] == rest[i - 1] && gs[i] == gs[1..][i - 1]; }
    }
    forall i, j | 0 <= i < j < |r| ensures r[i].key != r[j].key {
      if i > 0 {
        assert r[i] == rest[i - 1] && r[j] == rest[j - 1];
      } else if j < |gs| {
        assert r[j].key == gs[j].key;
      } else {
        assert r[j] == rest[j - 1];
      }
    }
    assert HasKey(r, k) by {
      var i :| 0 <= i < |rest| && rest[i].key == k;
      assert r[i + 1] == rest[i];
    }
    if !HasKey(gs, k) { assert r[|gs|] == rest[|gs| - 1]; }
  }

  /** The elements of `xs` grouped by key, groups in order of their keys'
      first occurrence. */
  function GroupBy<T>(xs: seq<T>, key: T -> string): (gs: seq<Group<T>>)
    ensures DistinctKeys(gs)
    ensures TotalSize(gs) == |xs|
    ensures forall i :: 0 <= i < |gs| ==> gs[i].items == Matching(xs, key, gs[i].key)
    ensures forall k :: HasKey(gs, k) <==> Matching(xs, key, k) != []
    decreases |xs|
  {
    if xs == [] then []
    else
      var prev := GroupBy(xs[..|xs| - 1], key);
      var gs := Insert(prev, key(xs[|xs| - 1]), xs[|xs| - 1]);
      InsertKeepsMatching(xs, key, prev);
      InsertKeepsKeys(xs, key, prev);
      gs
  }

  /** Filing the last element keeps every group equal to the matching
      elements, given that this held for the elements before it. */
  lemma InsertKeepsMatching<T>(xs: seq<T>, key: T -> string, prev: seq<Group<T>>)
    requires xs != [] && DistinctKeys(prev)
    requires forall i :: 0 <= i < |prev| ==> prev[i].items == Matching(xs[..|xs| - 1], key, prev[i].key)
    requires forall k :: HasKey(prev, k) <==> Matching(xs[..|xs| - 1], key, k) != []
    ensures var gs := Insert(prev, key(xs[|xs| - 1]), xs[|xs| - 1]);
            forall i :: 0 <= i < |gs| ==> gs[i].items == Matching(xs, key, gs[i].key)
  {
    var x := xs[|xs| - 1];
    var gs := Insert(prev, key(x), x);
    forall i | 0 <= i < |gs| ensures gs[i].items == Matching(xs, key, gs[i].key) {
      if i == |prev| {
        assert Matching(xs[..|xs| - 1], key, key(x)) == [];
      }
    }
  }

  /** The keys after filing are the keys before plus the filed key. */
  lemma InsertHasKey<T>(gs: seq<Group<T>>, k: string, x: T, k2: string)
    requires DistinctKeys(gs)
    ensures HasKey(Insert(gs, k, x), k2) <==> k2 == k || HasKey(gs, k2)
  {
    var r := Insert(gs, k, x);
    if HasKey(r, k2) && k2 != k {
      var i :| 0 <= i < |r| && r[i].key == k2;
      if i < |gs| {
        assert gs[i].key == k2;
      }
    }
    if HasKey(gs, k2) {
      var i :| 0 <= i < |gs| && gs[i].key == k2;
      assert r[i].key == k2;
    }
  }

  /** Filing the last element keeps the keys exactly those with a matching element. */
  lemma InsertKeepsKeys<T>(xs: seq<T>, key: T -> string, prev: seq<Group<T>>)
    requires xs != [] && DistinctKeys(prev)
    requires forall k :: HasKey(prev, k) <==> Matching(xs[..|xs| - 1], key, k) != []
    ensures var gs := Insert(prev, key(xs[|xs| - 1]), xs[|xs| - 1]);
            forall k :: HasKey(gs, k) <==> Matching(xs, key, k) != []
  {
    var x := xs[|xs| - 1];
    forall k ensures HasKey(Insert(prev, key(x), x), k) <==> Matching(xs, key, k) != [] {
      InsertHasKey(prev, key(x), x, k);
    }
  }

  /** Position of the group of key `k`. */
  ghost function GroupOf<T>(gs: seq<Group<T>>, k: string): (i: nat)
    requires HasKey(gs, k)
    ensures i < |gs| && gs[i].key == k
  {
    var i :| 0 <= i < |gs| && gs[i].key == k; i
  }

  /** Every element lands in the group of its own key ... */
  lemma ElementInOwnGroup<T>(xs: seq<T>, key: T -> string, p: int)
    requires 0 <= p < |xs|
    ensures HasKey(GroupBy(xs, key), key(xs[p]))
    ensures xs[p] in GroupBy(xs, key)[GroupOf(GroupBy(xs, key), key(xs[p]))].items
  {
    var gs := GroupBy(xs, key);
    var k := key(xs[p]);
    MatchingContains(xs, key, p);
    assert HasKey(gs, k);
    var i := GroupOf(gs, k);
    assert gs[i].items == Matching(xs, key, k);
  }

  /** ... and only there: a group holds nothing but elements of its key. */
  lemma GroupMembersShareKey<T>(xs: seq<T>, key: T -> string)
    ensures var gs := GroupBy(xs, key);
            forall i, y :: 0 <= i < |gs| && y in gs[i].items ==> key(y) == gs[i].key
  {
    var gs := GroupBy(xs, key);
    forall i | 0 <= i < |gs| {
      MatchingKeys(xs, key, gs[i].key);
    }
  }

  lemma {:induction false} MatchingContains<T>(xs: seq<T>, key: T -> string, p: int)
    requires 0 <= p < |xs|
    ensures xs[p] in Matching(xs, key, key(xs[p]))
    decreases |xs|
  {
    if p < |xs| - 1 {
      MatchingContains(xs[..|xs| - 1], key, p);
    }
  }

  lemma {:induction false} MatchingKeys<T>(xs: seq<T>, key: T -> string, k: string)
    ensures forall y :: y in Matching(xs, key, k) ==> key(y) == k
    decreases |xs|
  {
    if xs != [] {
      MatchingKeys(xs[..|xs| - 1], key, k);
    }
  }

  /** Position of the first element of key `k`. */
  function FirstIndex<T>(xs: seq<T>, key: T -> string, k: string): (p: nat)
    requires Matching(xs, key, k) != []
    ensures p < |xs| && key(xs[p]) == k
    ensures forall q :: 0 <= q < p ==> key(xs[q]) != k
    decreases |xs|
  {
    var init := xs[..|xs| - 1];
    if Matching(init, key, k) != [] then FirstIndex(init, key, k)
    else
      MatchingEmpty(init, key, k);
      |xs| - 1
  }

  lemma {:induction false} MatchingEmpty<T>(xs: seq<T>, key: T -> string, k: string)
    requires Matching(xs, key, k) == []
    ensures forall q :: 0 <= q < |xs| ==> key(xs[q]) != k
    decreases |xs|
  {
    if xs != [] {
      MatchingEmpty(xs[..|xs| - 1], key, k);
    }
  }

  /** Groups appear in the order in which their keys first occur. */
  lemma {:induction false} GroupsInFirstSeenOrder<T>(xs: seq<T>, key: T -> string, i: int, j: int)
    requires var gs := GroupBy(xs, key); 0 <= i < j < |gs|
    ensures var gs := GroupBy(xs, key);
            FirstIndex(xs, key, gs[i].key) < FirstIndex(xs, key, gs[j].key)
    decreases |xs|
  {
    var gs := GroupBy(xs, key);
    var init := xs[..|xs| - 1];
    var prev := GroupBy(init, key);
    assert gs[i].key == prev[i].key;
    assert Matching(init, key, gs[i].key) != [] by { assert HasKey(prev, prev[i].key); }
    FirstIndexOfInit(xs, key, gs[i].key);
    if j < |prev| {
      assert gs[j].key == prev[j].key;
      assert Matching(init, key, gs[j].key) != [] by { assert HasKey(prev, prev[j].key); }
      FirstIndexOfInit(xs, key, gs[j].key);
      GroupsInFirstSeenOrder(init, key, i, j);
    } else {
      assert !HasKey(prev, gs[j].key);
      MatchingEmpty(init, key, gs[j].key);
    }
  }

  lemma FirstIndexOfInit<T>(xs: seq<T>, key: T -> string, k: string)
    requires xs != [] && Matching(xs[..|xs| - 1], key, k) != []
    ensures Matching(xs, key, k) != []
    ensures FirstIndex(xs, key, k) == FirstIndex(xs[..|xs| - 1], key, k)
  {
  }
}

=== FILE: onboarding.dfy ===
/** The onboarding page: a three-step handshake that resolves the signed-in
    user (cached session, then server check, then a one-shot auth-event
    subscription), a three-screen form, and the submit pipeline that writes
    the onboarding row and moves on to the assessment. */
module OnboardingPage {
  import opened Base

  datatype OnboardingForm = OnboardingForm(
    full_name: string,
    college: string,
    year: string,
    daily_hours: string,
    goal: string)

  datatype Field = FullName | College | Year | DailyHours | Goal

  function Get(f: OnboardingForm, field: Field): string {
    match field
    case FullName => f.full_name
    case College => f.college
    case Year => f.year
    case DailyHours => f.daily_hours
    case Goal => f.goal
  }

  /** An input's change handler: the named field takes the typed value. */
  function Handle(f: OnboardingForm, field: Field, value: string): (r: OnboardingForm)
    ensures Get(r, field) == value
    ensures forall other: Field :: other != field ==> Get(r, other) == Get(f, other)
  {
    match field
    case FullName => f.(full_name := value)
    case College => f.(college := value)
    case Year => f.(year := value)
    case DailyHours => f.(daily_hours := value)
    case Goal => f.(goal := value)
  }

  datatype OnboardingState = OnboardingState(
    step: int,
    isSyncing: bool,
    user: Option<UserId>,
    authReady: bool,
    form: OnboardingForm,
    listening: bool)

  function Initial(): OnboardingState {
    OnboardingState(1, false, None, false, OnboardingForm("", "", "", "", ""), false)
  }

  /** The page's session invariant: the form is unlocked exactly when a user
      is known, and the listener is only held while no user is known. */
  predicate SessionInv(s: OnboardingState) {
    && (s.authReady <==> s.user.Some?)
    && (s.listening ==> !s.authReady)
  }

  // ---------------------------------------------------------------------
  // Auth handshake
  // ---------------------------------------------------------------------

  /** Marks the page as signed in as `u`. */
  function Resolved(s: OnboardingState, u: UserId): OnboardingState {
    s.(user := Some(u), authReady := true)
  }

  /** One delivered auth event: the first event of any kind whose session
      has a user resolves the page and releases the subscription; events
      without a user are ignored. */
  function OnAuthStateChange(s: OnboardingState, ev: AuthEvent): (r: Step<OnboardingState>)
    ensures s.listening && ev.user.Some? ==>
              r.state == Resolved(s, ev.user.value).(listening := false) && r.effects == [Unsubscribe]
    ensures !(s.listening && ev.user.Some?) ==> r.state == s && r.effects == []
  {
    if s.listening && ev.user.Some? then
      Step(Resolved(s, ev.user.value).(listening := false), [Unsubscribe])
    else Step(s, [])
  }

  /** Events processed strictly in arrival order. */
  function Feed(s: OnboardingState, events: seq<AuthEvent>): (r: Step<OnboardingState>)
    ensures r.state.form == s.form && r.state.step == s.step && r.state.isSyncing == s.isSyncing
    ensures forall i :: 0 <= i < |r.effects| ==> r.effects[i] == Unsubscribe
    decreases |events|
  {
    if events == [] then Step(s, [])
    else
      var first := OnAuthStateChange(s, events[0]);
      var rest := Feed(first.state, events[1..]);
      Step(rest.state, first.effects + rest.effects)
  }

  /** The handshake run from mount: `cached` is the cached session's user,
      `server` the server-verified user, `events` what the subscription
      would deliver. */
  function Init(s: OnboardingState, cached: Option<UserId>, server: Option<UserId>,
                events: seq<AuthEvent>): (r: Step<OnboardingState>)
    ensures |r.effects| > 0 && r.effects[0] == GetSession
    ensures GetUser in r.effects <==> cached.None?
    ensures Subscribe in r.effects <==> cached.None? && server.None?
    ensures forall i :: 0 <= i < |r.effects| ==>
              r.effects[i] in {GetSession, GetUser, Subscribe, Unsubscribe}
    ensures cached.Some? ==> r.state.user == cached && r.state.authReady
    ensures r.state.form == s.form && r.state.step == s.step && r.state.isSyncing == s.isSyncing
    ensures cached.None? && server.None? ==>
              r.effects == [GetSession, GetUser, Subscribe] +
                           (if exists i :: IsFirstUserEvent(events, i) then [Unsubscribe] else [])
    ensures cached.None? && server.None? ==>
              (r.state.listening <==> !exists i :: IsFirstUserEvent(events, i))
  {
    match cached
    case Some(u) => Step(Resolved(s, u), [GetSession])
    case None =>
      match server
      case Some(u) => Step(Resolved(s, u), [GetSession, GetUser])
      case None =>
        FeedResolvesFirstUser(s.(listening := true), events);
        var fed := Feed(s.(listening := true), events);
        Step(fed.state, [GetSession, GetUser, Subscribe] + fed.effects)
  }

  /** Index of the first event whose session carries a user. */
  predicate IsFirstUserEvent(events: seq<AuthEvent>, i: int) {
    0 <= i < |events| && events[i].user.Some? &&
    forall j :: 0 <= j < i ==> events[j].user.None?
  }

  /** Feeding a listening page resolves it to the first event carrying a
      user and releases the subscription; with no such event nothing
      happens and the page keeps listening. */
  lemma {:induction false} FeedResolvesFirstUser(s: OnboardingState, events: seq<AuthEvent>)
    requires s.listening
    ensures var r := Feed(s, events);
            (exists i :: IsFirstUserEvent(events, i) && r.state == Resolved(s, events[i].user.value).(listening := false)
                         && r.effects == [Unsubscribe])
            || ((forall j :: 0 <= j < |events| ==> events[j].user.None?) && r == Step(s, []))
  {
    if events == [] {
    } else if events[0].user.Some? {
      FeedIdle(OnAuthStateChange(s, events[0]).state, events[1..]);
      assert IsFirstUserEvent(events, 0);
    } else {
      FeedResolvesFirstUser(s, events[1..]);
      var r := Feed(s, events[1..]);
      if exists i :: IsFirstUserEvent(events[1..], i) && r.state == Resolved(s, events[1..][i].user.value).(listening := false)
                     && r.effects == [Unsubscribe] {
        var i :| IsFirstUserEvent(events[1..], i) && r.state == Resolved(s, events[1..][i].user.value).(listening := false)
                 && r.effects == [Unsubscribe];
        assert IsFirstUserEvent(events, i + 1);
      } else {
        forall j | 0 <= j < |events| ensures events[j].user.None? {
          if j > 0 { assert events[j] == events[1..][j - 1]; }
        }
      }
    }
  }

  /** Once the subscription is released, further events change nothing. */
  lemma {:induction false} FeedIdle(s: OnboardingState, events: seq<AuthEvent>)
    requires !s.listening
    ensures Feed(s, events) == Step(s, [])
  {
    if events != [] {
      FeedIdle(s, events[1..]);
    }
  }

  /** `authReady` never goes back to false and the user, once known, never
      changes, whatever events arrive. */
  lemma {:induction false} FeedMonotone(s: OnboardingState, events: seq<AuthEvent>)
    requires SessionInv(s)
    ensures SessionInv(Feed(s, events).state)
    ensures s.authReady ==> Feed(s, events).state.authReady && Feed(s, events).state.user == s.user
    decreases |events|
  {
    if events != [] {
      FeedMonotone(OnAuthStateChange(s, events[0]).state, events[1..]);
    }
  }

  /** The handshake tries its sources in priority order: a cached user
      settles it without a server check or subscription; a server user
      settles it without a subscription; only when both are empty is the
      listener registered, and then the first event carrying a user wins
      and releases it. With no such event the page keeps listening. */
  lemma InitPriority(s: OnboardingState, cached: Option<UserId>, server: Option<UserId>,
                     events: seq<AuthEvent>)
    requires SessionInv(s) && !s.authReady && !s.listening
    ensures var r := Init(s, cached, server, events);
            && SessionInv(r.state)
            && (cached.Some? ==> r.state.user == cached && r.effects == [GetSession])
            && (cached.None? && server.Some? ==> r.state.user == server && r.effects == [GetSession, GetUser])
            && (cached.None? && server.None? ==>
                  && r.effects[..3] == [GetSession, GetUser, Subscribe]
                  && r.effects == [GetSession, GetUser, Subscribe] +
                                  (if exists i :: IsFirstUserEvent(events, i) then [Unsubscribe] else [])
                  && (r.state.listening <==> !exists i :: IsFirstUserEvent(events, i))
                  && (r.state.authReady <==> exists i :: IsFirstUserEvent(events, i))
                  && (forall i :: IsFirstUserEvent(events, i) ==> r.state.user == events[i].user))
  {
    if cached.None? && server.None? {
      var s' := s.(listening := true);
      FeedResolvesFirstUser(s', events);
      FeedMonotone(s', events);
      forall i | IsFirstUserEvent(events, i) ensures Init(s, cached, server, events).state.user == events[i].user {
        FirstUserEventUnique(events, i);
      }
    }
  }

  lemma FirstUserEventUnique(events: seq<AuthEvent>, i: int)
    requires IsFirstUserEvent(events, i)
    ensures forall k :: IsFirstUserEvent(events, k) ==> k == i
  {
    forall k | IsFirstUserEvent(events, k) ensures k == i {
    }
  }

  datatype Screen = SigningIn | FormStep(step: int)

  /** The form is withheld until the handshake has resolved a user. */
  function ScreenOf(s: OnboardingState): (v: Screen)
    ensures v.FormStep? <==> s.authReady
    ensures v.FormStep? ==> v.step == s.step
  {
    if !s.authReady then SigningIn else FormStep(s.step)
  }

  // ---------------------------------------------------------------------
  // Submit pipeline
  // ---------------------------------------------------------------------

  const SessionLost: string := "Session lost. Please login again."
  const SyncFailed: string := "Database sync failed. Check RLS policies."

  /** The row written for a user: the five form fields verbatim. */
  function RowFor(u: UserId, f: OnboardingForm): (row: OnboardingRow)
    ensures row.user_id == u
    ensures forall field: Field :: Get(f, field) == GetRowField(row, field)
  {
    OnboardingRow(u, f.full_name, f.college, f.year, f.daily_hours, f.goal)
  }

  function GetRowField(row: OnboardingRow, field: Field): string {
    match field
    case FullName => row.full_name
    case College => row.college
    case Year => row.year
    case DailyHours => row.daily_hours
    case Goal => row.goal
  }

  /** Without a user: alert and back to sign-in, nothing written. With one:
      one upsert of the form as typed (no field is checked for emptiness),
      then the assessment page on success or an alert on failure; the sync
      flag is off afterwards either way. */
  function Submit(s: OnboardingState, reply: WriteReply): (r: Step<OnboardingState>)
    ensures s.user.None? ==> r.state == s && r.effects == [Alert(SessionLost), Navigate(AuthPath)]
    ensures s.user.Some? ==> !r.state.isSyncing && r.state == s.(isSyncing := false)
    ensures s.user.Some? ==>
              |r.effects| == 2 && r.effects[0] == Upsert(OnboardingData(RowFor(s.user.value, s.form)))
    ensures s.user.Some? ==> (Navigations(r.effects) == [AssessmentPath] <==> reply.Written?)
    ensures s.user.Some? ==> (Navigations(r.effects) == [] <==> reply.WriteFailed?)
    ensures s.user.Some? && reply.Written? ==>
              r.effects == [Upsert(OnboardingData(RowFor(s.user.value, s.form))), Navigate(AssessmentPath)]
    ensures s.user.Some? && reply.WriteFailed? ==>
              r.effects == [Upsert(OnboardingData(RowFor(s.user.value, s.form))), Alert(SyncFailed)]
  {
    match s.user
    case None => Step(s, [Alert(SessionLost), Navigate(AuthPath)])
    case Some(u) =>
      var write := Upsert(OnboardingData(RowFor(u, s.form)));
      match reply
      case Written =>
        assert Navigations([write, Navigate(AssessmentPath)]) == [AssessmentPath] by {
          assert [write, Navigate(AssessmentPath)][1..] == [Navigate(AssessmentPath)];
          assert [Navigate(AssessmentPath)][1..] == [];
        }
        Step(s.(isSyncing := false), [write, Navigate(AssessmentPath)])
      case WriteFailed(_) =>
        assert Navigations([write, Alert(SyncFailed)]) == [] by {
          assert [write, Alert(SyncFailed)][1..] == [Alert(SyncFailed)];
          assert [Alert(SyncFailed)][1..] == [];
        }
        Step(s.(isSyncing := false), [write, Alert(SyncFailed)])
  }

  /** Once the form is on screen the "session lost" branch cannot be taken. */
  lemma SubmitFromFormWrites(s: OnboardingState, reply: WriteReply)
    requires SessionInv(s) && ScreenOf(s).FormStep?
    ensures Upsert(OnboardingData(RowFor(s.user.value, s.form))) in Submit(s, reply).effects
  {
  }

  // ---------------------------------------------------------------------
  // Step counter
  // ---------------------------------------------------------------------

  const LastStep: int := 3

  function NextStep(step: int): int { step + 1 }
  function PrevStep(step: int): int { step - 1 }

  datatype Button = Primary | Back

  /** The buttons on screen: Back only past the first step; the primary
      button is always there (disabled while syncing). */
  predicate Offered(s: OnboardingState, b: Button) {
    match b
    case Primary => true
    case Back => s.step > 1
  }

  /** A click on an offered button: Back goes one step back; the primary
      button advances, except on the last step where it submits. A disabled
      primary button does nothing. */
  function Press(s: OnboardingState, b: Button, reply: WriteReply): (r: Step<OnboardingState>)
    requires Offered(s, b)
    ensures b == Back ==> r.state == s.(step := s.step - 1) && r.effects == []
    ensures b == Primary && s.isSyncing ==> r == Step(s, [])
    ensures b == Primary && !s.isSyncing && s.step != LastStep ==>
              r.state == s.(step := s.step + 1) && r.effects == []
    ensures b == Primary && !s.isSyncing && s.step == LastStep ==>
              r.state.step == LastStep && (s.user.Some? ==> Upsert(OnboardingData(RowFor(s.user.value, s.form))) in r.effects)
    ensures b == Primary && !s.isSyncing && s.step == LastStep ==> r == Submit(s, reply)
  {
    match b
    case Back => Step(s.(step := PrevStep(s.step)), [])
    case Primary =>
      if s.isSyncing then Step(s, [])
      else if s.step == LastStep then Submit(s, reply)
      else Step(s.(step := NextStep(s.step)), [])
  }

  /** The step counter stays within 1..3 under every offered click. */
  lemma PressKeepsStepInRange(s: OnboardingState, b: Button, reply: WriteReply)
    requires 1 <= s.step <= LastStep && Offered(s, b)
    ensures 1 <= Press(s, b, reply).state.step <= LastStep
  {
  }

  /** Any sequence of offered clicks keeps the step counter within 1..3. */
  function Clicks(s: OnboardingState, buttons: seq<Button>, reply: WriteReply): (r: OnboardingState)
    requires 1 <= s.step <= LastStep
    ensures 1 <= r.step <= LastStep
    ensures r.user == s.user && r.authReady == s.authReady
    decreases |buttons|
  {
    if buttons == [] then s
    else if Offered(s, buttons[0]) then
      Clicks(Press(s, buttons[0], reply).state, buttons[1..], reply)
    else Clicks(s, buttons[1..], reply)
  }
}

=== FILE: routes.dfy ===
/** The client-side route table: five known paths, each rendering one page,
    and a wildcard that redirects every other path to the landing page.
    Resolution looks at the path alone; no route checks the session or the
    funnel stage, all gating happens inside the pages. The router compares a
    location with a route pattern case-insensitively and ignores trailing
    slashes, so "/Auth" and "/auth/" both render the sign-in page. */
module Routes {
  import opened Base

  datatype Page = Landing | Auth | Onboarding | Assessment | Dashboard

  datatype Resolution = Render(page: Page) | Redirect(target: string)

  /** The path a page is mounted at. */
  function PathOf(p: Page): string {
    match p
    case Landing => RootPath
    case Auth => AuthPath
    case Onboarding => OnboardingPath
    case Assessment => AssessmentPath
    case Dashboard => DashboardPath
  }

  // ---------------------------------------------------------------------
  // Matching a location against a route pattern
  // ---------------------------------------------------------------------

  /** A path with all its trailing slashes removed: "/auth//" becomes "/auth"
      and a path made only of slashes becomes empty. */
  function StripTrailing(path: string): (r: string)
    ensures r <= path
    ensures r == [] || r[|r| - 1] != '/'
    ensures forall i :: |r| <= i < |path| ==> path[i] == '/'
  {
    if path != [] && path[|path| - 1] == '/' then StripTrailing(path[..|path| - 1]) else path
  }

  /** The form under which a location and a pattern are compared. */
  function Canon(path: string): string {
    Lower(StripTrailing(path))
  }

  /** A pattern without a trailing slash matches a location when the location
      is the pattern, up to letter case, followed by any number of slashes.
      A real location always starts with a slash; the model treats the
      empty string as matching no pattern. */
  predicate Matches(pattern: string, path: string) {
    path != [] && Canon(path) == Canon(pattern)
  }

  /** The canonical forms of the five mounted paths. */
  lemma CanonOfPaths()
    ensures Canon(RootPath) == []
    ensures forall p: Page :: p != Landing ==> Canon(PathOf(p)) == PathOf(p)
  {
    assert StripTrailing(RootPath) == [];
    forall p: Page | p != Landing
      ensures Canon(PathOf(p)) == PathOf(p)
    {
      var s := PathOf(p);
      assert StripTrailing(s) == s;
      assert Lower(s) == s;
    }
  }

  /** Routing of a location path; the only input is the path. */
  function Resolve(path: string): (r: Resolution)
    ensures r.Render? ==> Matches(PathOf(r.page), path)
    ensures r.Redirect? ==> r.target == RootPath && forall p: Page :: !Matches(PathOf(p), path)
  {
    CanonOfPaths();
    var key := Canon(path);
    if path == [] then Redirect(RootPath)
    else if key == [] then Render(Landing)
    else if key == AuthPath then Render(Auth)
    else if key == OnboardingPath then Render(Onboarding)
    else if key == AssessmentPath then Render(Assessment)
    else if key == DashboardPath then Render(Dashboard)
    else Redirect(RootPath)
  }

  /** Every page is reached from its own path, so the table has no shadowed entry. */
  lemma ResolvePathOf(p: Page)
    ensures Resolve(PathOf(p)) == Render(p)
  {
    CanonOfPaths();
  }

  /** A path renders a page exactly when that page's pattern matches it; no
      two patterns match the same path, so the rendered page is determined. */
  lemma ResolveKnown(path: string, p: Page)
    ensures Resolve(path) == Render(p) <==> Matches(PathOf(p), path)
  {
    CanonOfPaths();
  }

  /** Stripping trailing slashes commutes with lower-casing, because a slash
      is lower-cased to itself and nothing else is lower-cased to a slash. */
  lemma {:induction false} StripTrailingLower(path: string)
    ensures StripTrailing(Lower(path)) == Lower(StripTrailing(path))
  {
    if path != [] {
      var n := |path| - 1;
      assert Lower(path)[..n] == Lower(path[..n]);
      StripTrailingLower(path[..n]);
    }
  }

  /** Letter case in a location does not change where it leads. */
  lemma ResolveIgnoresCase(path: string)
    ensures Resolve(Lower(path)) == Resolve(path)
  {
    StripTrailingLower(path);
    LowerIdempotent(StripTrailing(path));
  }

  /** A trailing slash on a non-empty location does not change where it leads. */
  lemma ResolveIgnoresTrailingSlash(path: string)
    requires path != []
    ensures Resolve(path + "/") == Resolve(path)
  {
    assert (path + "/")[..|path|] == path;
  }

  /** A capitalised location reaches the sign-in page. */
  lemma ResolveMixedCaseExample()
    ensures Resolve("/Auth") == Render(Auth)
  {
    ResolveIgnoresCase("/Auth");
    assert Lower("/Auth") == AuthPath;
    ResolvePathOf(Auth);
  }

  /** Upper case and a trailing slash together still reach the dashboard. */
  lemma ResolveUpperCaseSlashExample()
    ensures Resolve("/DASHBOARD/") == Render(Dashboard)
  {
    ResolveIgnoresTrailingSlash("/DASHBOARD");
    assert "/DASHBOARD" + "/" == "/DASHBOARD/";
    ResolveIgnoresCase("/DASHBOARD");
    assert Lower("/DASHBOARD") == DashboardPath;
    ResolvePathOf(Dashboard);
  }

  /** A location that merely starts with a known path is not that path. */
  lemma ResolvePrefixExample()
    ensures Resolve("/authx") == Redirect(RootPath)
  {
    assert StripTrailing("/authx") == "/authx";
    assert Lower("/authx") == "/authx";
  }

  /** Following a redirect always renders a page: the fallback target is a
      known route, so resolution never loops. */
  lemma RedirectTerminates(path: string)
    ensures Resolve(path).Redirect? ==> Resolve(Resolve(path).target) == Render(Landing)
  {
    ResolvePathOf(Landing);
  }

  /** The page actually displayed after at most one redirect. */
  function Settle(path: string): (p: Page)
    ensures Resolve(path).Render? ==> p == Resolve(path).page
    ensures Resolve(path).Redirect? ==> p == Landing
  {
    ResolvePathOf(Landing);
    match Resolve(path)
    case Render(page) => page
    case Redirect(target) =>
      match Resolve(target)
      case Render(page) => page
      case Redirect(_) => assert false; Landing
  }
}
